=== FILE: README.md ===
# Josephson simulation viewer: gallery, metadata and run control

This project models, in Dafny, the core of the Tk desktop viewer that
drives the Josephson circuit optimiser (`gui/pygui.py`). The window shows
two image galleries. One holds plots and is polled every 500 ms. The other
holds correlation matrices and is polled every 10 s. Each image may have a
JSON "sidecar" of metadata beside it, and its text is shown under the image.
One button per gallery removes the `.png` and `.json` files in its
directory. A single button starts or stops the external simulation process.

The model is made of pure functions over immutable values:

- `Gallery` is one gallery's state machine. `Gallery(files, index)` is the
  file list and the current index. It has the refresh, poll and
  next/previous operations. `Show` computes what the gallery displays: canvas,
  status line, buttons and metadata text. The module is parameterised by a
  `Kind` that carries the texts telling plots from matrices.
- `Sidecar` covers loading and formatting of a sidecar. `X.png` has the
  sidecar `X.json`. JSON decoding is not modelled: the decoded files
  are an input, a `Store` from path to `Option<Meta>`, where `None` means the
  file exists but does not parse.
- `Clear` covers both clear buttons. One tolerates failed removals and
  counts the successes. The other aborts at the first failure. The set of
  names whose removal fails is an input.
- `Viewer` is the whole window as an event-driven state machine over
  `App`. It holds the process slot, the run indicator and both galleries.
  These all change on events:
  - `Toggle`, `Start` and `Stop`;
  - `Spawned(h)`, where the worker thread fills the slot;
  - `Finished`, the callback the worker posts;
  - the timer ticks;
  - the navigation buttons;
  - the clear buttons.

  Each event yields the new state, the log lines and the outside effects:
  launching a worker, terminating the process and removing a file.
- `Order`, `Text` and `Decimal` are support modules:
  - `Order` models Python's string comparison, `sorted`, and the sorted keys
    of a dict;
  - `Text` models `endswith`, `"\n".join`, `os.path.join` and
    `os.path.basename`;
  - `Decimal` models the decimal rendering of a count.
- `Scenario` holds worked examples over a concrete directory listing.

A directory listing is `Option<seq<string>>`: `None` means the directory
does not exist, and then the gallery list is left as it was.

Behaviour of the code that the model keeps as written:

- With an empty directory the gallery index is left as it was; only the
  view shows position -1 (`gui/pygui.py:293-294`). `Gallery.Poll` keeps the
  index and `Gallery.PollStep` shows the empty view. A clear also keeps the
  index while the list shrinks (`gui/pygui.py:414`), so an index can lie
  past the end of the list until the next poll.
- Starting a run does not fill the process slot. Only the worker thread
  does, once the process exists (`gui/pygui.py:463-472`). Until then a
  second start launches a second worker. `Viewer.DoubleToggleBeforeSpawn`
  shows this.
- Stopping a run finishes it at once. The worker then posts a second
  `simulation_finished` when the process exits, so the end of the run is
  logged twice (`Viewer.StopThenWorkerFinished`).
- Each of `clear_plots` and `clear_corr` is defined twice. The later
  definition is the effective one (`gui/pygui.py:403` and `:419`). The
  matrices variant has no handler around the removal, so the first failing
  removal aborts the action before the report and the refresh.
- The log texts for "cleared" and "stopped" begin with mis-encoded check
  and cross marks in the source file. `Viewer.CheckMark` and `Viewer.Cross`
  keep those characters exactly.

## Model

| member | source | states |
|---|---|---|
| Gallery.PngPaths | gui/pygui.py:218 | Every kept path ends in `.png`, and there are never more paths than listed names. |
| Gallery.PngPathsMembers | gui/pygui.py:218 | A path is kept exactly when some listed name ending in `.png` joins to it. |
| Gallery.Refresh | gui/pygui.py:214-219 | The index is kept. A missing directory leaves the gallery as it was. Otherwise the new list is in ascending order and is a permutation of the directory's `.png` entries. |
| Gallery.RefreshMembers | gui/pygui.py:316-321 | A path is in the refreshed list iff the directory lists a `.png` name it joins to. |
| Gallery.PngPathsPermutation | gui/pygui.py:217-218 | Filtering a reordered listing yields a reordering of the filtered paths. |
| Gallery.RefreshGrows | gui/pygui.py:214-219 | When the directory only gains entries, every previously listed path is still in the list. |
| Order.SortIgnoresListingOrder | gui/pygui.py:217-219 | Two lists holding the same items sort to the same list, so the order in which `os.listdir` returns names does not matter. |
| Order.Sort | gui/pygui.py:217 | The result is in ascending code-point order and is a permutation of the input. |
| Order.SortedUnique | gui/pygui.py:217 | Two ascending permutations of the same items are equal, so `sorted` has a single possible result. |
| Order.CommonPrefix | gui/pygui.py:218 | Paths in one directory compare as their names do. |
| Order.SortedKeys | gui/pygui.py:184 | The result is ascending, has no repeats, and holds exactly the keys of the object. |
| Gallery.Clamp | gui/pygui.py:289-291 | An index past the end of a non-empty list becomes the last position. Any other index is kept. |
| Gallery.Poll | gui/pygui.py:286-291 | After a poll from a non-negative index, the index is inside a non-empty list. An index already inside is kept. With an empty list the index is left alone. |
| Gallery.PollStep | gui/pygui.py:286-294 | A tick shows the empty view when the list is empty. Otherwise it shows the image at the clamped index when it decodes, and keeps the previous view when it does not. |
| Gallery.PollFixed | gui/pygui.py:286-291 | A second poll of the same listing leaves a polled gallery as it is. |
| Gallery.ShowAgain | gui/pygui.py:221-271 | Showing the same entry twice gives the same view as showing it once. |
| Gallery.PollIdempotent | gui/pygui.py:379-387 | A second poll of an unchanged directory leaves the gallery and the view as the first poll left them. |
| Gallery.Next | gui/pygui.py:274-277 | The index moves iff it is before the last entry, and then by exactly +1. An index in range stays in range. |
| Gallery.Prev | gui/pygui.py:280-283 | The index moves iff it is positive, and then by exactly -1. It never becomes negative. |
| Gallery.NextStep | gui/pygui.py:365-369 | At the end nothing changes, not even the view. Otherwise the next entry is shown. |
| Gallery.PrevStep | gui/pygui.py:372-376 | At the start nothing changes, not even the view. Otherwise the previous entry is shown. |
| Gallery.NextPrevInverse | gui/pygui.py:274-284 | For an index inside the list, a step forward that moves is undone by a step back, and the other way round. |
| Gallery.NextRepeated | gui/pygui.py:274-278 | `k` presses of "next" from an index before the end land on `index + k`, stopping at the last entry. From the last entry, or from an index past the end as a clear leaves it, nothing moves. |
| Gallery.PrevRepeated | gui/pygui.py:280-284 | From any non-negative index, even one past the end of the list, `k` presses of "previous" land on `index - k`, stopping at 0. |
| Gallery.Show | gui/pygui.py:221-271 | An index outside the list gives the empty view: placeholder, "nothing to display" status, both buttons off, no metadata. An image that does not decode leaves the view untouched. A decoded image is drawn with the status `"<Prefix> <i+1> of <n>: <base name>"` and its sidecar's text, "previous" is on iff the index is positive, and "next" is on iff the index is before the last entry. |
| Gallery.ShowStatus | gui/pygui.py:247-249 | The status line of a shown image reads back as its position counted from 1, the list length and the file's base name. |
| Gallery.StatusRoundTrip | gui/pygui.py:345 | The status text determines its position, count and name: parsing it gives them back. |
| Gallery.ButtonsMatchNavigation | gui/pygui.py:253-255 | Each navigation button of a shown image is enabled exactly when pressing it would move the index. |
| Text.BasenameOfJoin | gui/pygui.py:248 | The base name of `dir/name` is `name`. |
| Text.Basename | gui/pygui.py:248 | The base name has no separator, ends the path, and is preceded by a separator unless it is the whole path: it is everything after the last `/`. |
| Decimal.ParseNatToString | gui/pygui.py:413 | The decimal rendering of a count reads back as that count. |
| Decimal.NatToString | gui/pygui.py:248 | The rendering is non-empty and all digits. It has no leading zero unless the number is 0. It is one character long exactly for numbers below 10. |
| Sidecar.SidecarPath | gui/pygui.py:160 | The sidecar path of `X.png` ends in `.json` and shares the stem `X`. |
| Sidecar.SidecarRoundTrip | gui/pygui.py:160 | The image path is recovered from its sidecar path. |
| Sidecar.SidecarInjective | gui/pygui.py:160 | Two different images never share a sidecar. |
| Sidecar.LoadSidecar | gui/pygui.py:157-167 | No path, an empty path or a non-`.png` path gives nothing. For a `.png` path the result is the decoded sidecar when it exists and parses, and nothing when it is missing or unreadable. |
| Sidecar.PromotedLines | gui/pygui.py:174-177 | There is exactly one line per present key among `plot_type`, `timestamp`, `metric` and `png` (as many lines as present keys), each present key's entry appears, and no other line. There are no lines iff none is present. |
| Sidecar.Section | gui/pygui.py:179-193 | A `params`/`extra` block exists iff the member is a non-empty object. It is a blank line, the `name:` header, then one line per member. |
| Sidecar.SectionLayout | gui/pygui.py:184-185 | The member lines name every key of the nested object once, in ascending order, each with its value indented. |
| Sidecar.FormatMetadata | gui/pygui.py:169-171 | A missing or empty sidecar renders as "No metadata available for this image.". |
| Sidecar.FormatLines | gui/pygui.py:169-195 | When no rendered text holds a line break, splitting the text at line breaks gives the promoted entries, then the params block, then the extra block. |
| Sidecar.NothingRecognised | gui/pygui.py:170-195 | A non-empty sidecar with none of the rendered keys renders as the empty text, not as the "no metadata" message. |
| Sidecar.ScanExample | gui/pygui.py:169-195 | `{"plot_type": "scan", "params": {"x": 1}}` renders as four lines: the entry, a blank line, `params:` and `  x: 1`. |
| Text.SplitJoin | gui/pygui.py:195 | Joining line-break-free lines with `\n` and splitting them again gives the lines back. |
| Clear.RemovableExactly | gui/pygui.py:406-411 | The removed names are exactly the listed `.png`/`.json` names whose removal succeeds. |
| Clear.ClearPartitions | gui/pygui.py:403-412 | Every listed name is either removed or still there, never both, with multiplicity. |
| Clear.ClearTolerant | gui/pygui.py:403-412 | The loop removes exactly the removable names, in listing order, and counts them. |
| Clear.ClearLeavesFailures | gui/pygui.py:413-415 | After the clear, the refreshed list holds only images whose removal failed. |
| Clear.FirstFailure | gui/pygui.py:422-425 | This is the first listed output whose removal fails, or the length of the listing when none fails. |
| Clear.ClearStrict | gui/pygui.py:419-425 | Outputs are removed in listing order up to the first failing one. A failure is reported iff one exists, and the one reported is the first failing output of the listing. |
| Clear.StrictWithoutFailures | gui/pygui.py:419-425 | When no output's removal fails, the strict clear runs to the end and removes exactly what the tolerant clear removes. |
| Viewer.ClearPlotsStep | gui/pygui.py:403-416 | The count logged equals the number of successful removals, and those are exactly the removable names, in listing order. An existing directory's list is refreshed from the names left; a missing one keeps the list. The index is kept, the plots view is emptied, and the run state and the matrices view are untouched. |
| Viewer.ClearCorrStep | gui/pygui.py:419-429 | The successful removals are exactly the outputs listed before the first failing one; the failing attempt itself removes nothing. If a removal fails, the window is unchanged and nothing is logged. Otherwise the count logged equals the removals, the list is refreshed from the names left and the matrices view is emptied. A missing directory logs a count of 0 and empties the view. The plots side and the run state are untouched. |
| Viewer.StartSimulation | gui/pygui.py:432-484 | With the slot filled, only a warning is logged. Otherwise the run indicator turns on, only the plot index goes to 0, both lists refresh, "Starting" is logged and one worker is launched. The slot stays empty. |
| Viewer.StopSimulation | gui/pygui.py:486-494 | With an empty slot, only an information line is logged. Otherwise the process is terminated, the slot is emptied, the indicator is turned off, and "stopped" then "finished" are logged. The galleries and their views are untouched. |
| Viewer.SimulationFinished | gui/pygui.py:496-503 | The slot is emptied, the indicator is turned off and "finished" is logged, whatever the state was. Nothing else changes. |
| Viewer.ToggleSimulation | gui/pygui.py:393-399 | The toggle starts a run iff the slot is empty, and stops one iff it is filled. |
| Viewer.Removals | gui/pygui.py:409 | There is one removal per name, of `dir/name`, in order. |
| Viewer.RunKeepsIndices | gui/pygui.py:14-16 | No sequence of events, each seeing its own state of the directories, makes either gallery index negative. |
| Viewer.RunFromInit | gui/pygui.py:12-16 | From the window as it opens (no process, empty lists at index 0, "nothing to display" labels), no run makes a gallery index negative. |
| Viewer.ClearedTextDeterminesCount | gui/pygui.py:413 | The "cleared" log line of either gallery determines the number of files removed. |
| Viewer.TextOf | gui/pygui.py:413-503 | The log texts of lines 413, 426, 435, 452, 491, 494 and 503: only the two "cleared" lines begin with the check mark, and only the "stopped" line begins with the cross. |
| Viewer.TextsDistinct | gui/pygui.py:413-503 | No two different log messages share a text, so each line in the log names one event, with its count. |
| Viewer.PlotStep | gui/pygui.py:274-296 | A plots tick or plots navigation press polls the plots directory or steps the plots index. A tick draws the clamped entry when it decodes, keeps the view when it does not, and shows the empty view for an empty list; "next" and "previous" draw entry `index+1` or `index-1` when they move and redraw nothing otherwise. It draws only views of plots, leaves the matrices gallery, its view and the run state alone, and logs nothing. |
| Viewer.CorrStep | gui/pygui.py:365-389 | A matrices tick or matrices navigation press polls the matrices directory or steps the matrices index, and draws what `update_corr`, `next_corr` or `prev_corr` draws: the clamped entry, the kept view or the empty view on a tick, entry `index+1` or `index-1` on a press that moves. It draws only views of matrices, leaves the plots gallery, its view and the run state alone, and logs nothing. |
| Viewer.Step | gui/pygui.py:393-399 | Each event reaches its handler, as the `command=` bindings (lines 620-638, 737-747, 808-818), the timer re-arming (lines 295, 388) and the worker's slot fill and callback (lines 466, 479) wire them: the main button toggles, each clear button clears its own gallery, each gallery's tick and buttons act on that gallery only, and the worker filling the slot changes nothing else. |
| Viewer.DoubleToggleBeforeSpawn | gui/pygui.py:393-397 | Two presses before the worker fills the slot launch two workers and log "Starting" twice. |
| Viewer.StartAfterSpawnWarns | gui/pygui.py:434-436 | Once the worker has filled the slot, a second start only warns. |
| Viewer.StopThenWorkerFinished | gui/pygui.py:478-479 | Stopping followed by the worker's own completion callback logs the end of the run twice. |
| Scenario.RefreshScenario | gui/pygui.py:214-219 | The listing `c.png, b.json, notes.txt, a.png, b.png` refreshes to `dir/a.png, dir/b.png, dir/c.png`. |
| Scenario.MetadataScenario | gui/pygui.py:157-195 | In that gallery only `b.png`, which has a sidecar, shows metadata text. The others show the "no metadata" message. |
| Scenario.ClearScenario | gui/pygui.py:403-412 | Clearing that listing removes the four outputs and leaves `notes.txt`. |
| Scenario.RefreshAfterClear | gui/pygui.py:414 | After that clear the refreshed plot list is empty. |

## Left out

- Failed removal attempts are not effects: a `Remove` effect is a completed deletion. The source also attempts to remove each output whose removal fails; such attempts leave no trace in the model, since they change nothing on disk.
- Widgets, layout, colours, fonts, canvas centring and the log's timestamps are not modelled. They are presentation only.
- Image decoding and scaling (PIL, floating-point ratio, LANCZOS resampling) are not modelled. Whether an image decodes is a boolean input of each showing event.
- The worker thread, the spawned process, the draining of its output and the per-line log messages are not modelled. Their observable results are the `Spawned` and `Finished` events. The break taken when the slot is emptied mid-stream is not modelled either.
- The error line the worker posts when spawning or waiting fails is not modelled. Only the `simulation_finished` callback that follows it is, as `Finished`.
- Timer scheduling with `root.after`, and the 500 ms and 10 s periods, are not modelled. A tick is an event.
- `ensure_workspace_structure`, `update_workspace_paths`, `browse_workspace`, the workspace field and the file tree are not modelled. Directory paths and listings are inputs.
- `run_function`, `open_path`, `clear_output`, `on_closing` and the window construction are not part of this model, apart from the galleries' opening labels and disabled buttons (`Viewer.Init`).
- The log's message levels (the colour tag of each line) are not modelled. Only the message texts are (`Viewer.TextOf`).
- The superseded first definitions of `clear_plots` (`gui/pygui.py:147`) and `clear_corr` (`gui/pygui.py:300`) are left out. Python rebinds both names, so those definitions never run.
- JSON decoding is left out. A parsed sidecar is given as a map. A falsy top-level document (`null`, `[]`, `0`, `false`, `""`) renders the "no metadata" message just as a missing or empty one does, so it is expressed as `None` or `Some(map[])`. A truthy top-level document that is not an object makes `format_metadata` raise inside `show_*`'s handler, after the canvas and status were drawn and the metadata box emptied but before the buttons are updated (`gui/pygui.py:239-255`, `:669-670`). That partially updated view cannot be expressed.
- Sidecar.Value: the `str()` rendering of each value is carried as text, not computed, because Python's rendering of nested objects depends on member order, which a map does not keep.
- A path that exists but is not a directory (where `os.listdir` would raise) is not modelled. A listing is either present or absent.
- Text.PathJoin: it models `os.path.join` only for a directory not ending in a separator and a name without one, which is what `os.listdir` returns.
- Order.LessEq: it compares by character code. That is Python's order for `str`, but surrogate pairs and normalisation are not considered.
- Sidecar.PromotedLines: its contract states which entries appear, that nothing else does, and that there is one line per present key. It does not state their relative order. That order is fixed by the key list and exhibited by `Sidecar.ScanExample`.
- setup_gui.py is not part of this model.

=== FILE: clear.dfy ===
/** Clearing a gallery's outputs. The plots button removes every `.png`
    image and `.json` sidecar in the directory, skips a file it cannot
    remove, and reports how many it removed; then it refreshes the list and
    shows the empty view. The matrices button does the same without catching
    a failed removal, so the first failure aborts it. Which removals fail is
    an input: the set of names the file system refuses to delete. */
module Clear {
  import opened Wrappers
  import opened Text
  import opened Sidecar
  import opened Gallery

  /** An output of the simulation: an image or its sidecar. */
  predicate IsOutput(name: string) {
    EndsWith(name, ".png") || EndsWith(name, ".json")
  }

  /** A name the tolerant clear removes. */
  predicate Removed(name: string, failing: set<string>) {
    IsOutput(name) && name !in failing
  }

  /** Reference definition: the names a tolerant clear removes, in listing order. */
  function Removable(names: seq<string>, failing: set<string>): (r: seq<string>)
    ensures |r| <= |names|
  {
    if |names| == 0 then []
    else
      var init := names[..|names| - 1];
      var last := names[|names| - 1];
      Removable(init, failing) + (if Removed(last, failing) then [last] else [])
  }

  /** The removed names are exactly the listed outputs whose removal
      succeeds. */
  lemma {:induction false} RemovableExactly(names: seq<string>, failing: set<string>)
    ensures forall i :: 0 <= i < |Removable(names, failing)| ==> Removed(Removable(names, failing)[i], failing)
    ensures forall n :: n in names && Removed(n, failing) <==> n in Removable(names, failing)
  {
    if |names| > 0 {
      var init := names[..|names| - 1];
      var last := names[|names| - 1];
      RemovableExactly(init, failing);
      assert names == init + [last];
      assert forall n :: n in names <==> n in init || n == last;
    }
  }

  /** The names still in the directory after a tolerant clear. */
  function Remaining(names: seq<string>, failing: set<string>): seq<string> {
    if |names| == 0 then []
    else
      var init := names[..|names| - 1];
      var last := names[|names| - 1];
      Remaining(init, failing) + (if Removed(last, failing) then [] else [last])
  }

  /** Every listed name is either removed or still there, never both. */
  lemma {:induction false} ClearPartitions(names: seq<string>, failing: set<string>)
    ensures multiset(names) == multiset(Removable(names, failing)) + multiset(Remaining(names, failing))
    ensures forall n :: n in Remaining(names, failing) ==> n in names && !Removed(n, failing)
  {
    if |names| > 0 {
      var init := names[..|names| - 1];
      ClearPartitions(init, failing);
      assert names == init + [names[|names| - 1]];
    }
  }

  /** `clear_plots` over an existing directory: visit the listing, remove
      each output, skip a removal that fails, count the successes. */
  method ClearTolerant(names: seq<string>, failing: set<string>) returns (removed: seq<string>, count: nat)
    ensures removed == Removable(names, failing)
    ensures count == |removed|
  {
    removed := [];
    count := 0;
    var i := 0;
    while i < |names|
      invariant 0 <= i <= |names|
      invariant removed == Removable(names[..i], failing)
      invariant count == |removed|
    {
      var name := names[i];
      assert names[..i + 1][..i] == names[..i];
      if IsOutput(name) {
        if name !in failing {
          removed := removed + [name];
          count := count + 1;
        }
      }
      i := i + 1;
    }
    assert names[..i] == names;
  }

  /** After a tolerant clear the refreshed list holds only images whose
      removal failed. */
  lemma ClearLeavesFailures(g: Gallery, dir: string, names: seq<string>, failing: set<string>, p: string)
    requires p in Refresh(g, dir, Some(Remaining(names, failing))).files
    ensures exists n :: n in names && n in failing && EndsWith(n, ".png") && p == PathJoin(dir, n)
  {
    ClearPartitions(names, failing);
    RefreshMembers(g, dir, Remaining(names, failing), p);
  }

  /** Position of the first output whose removal fails, or `|names|`. */
  function FirstFailure(names: seq<string>, failing: set<string>): (k: nat)
    ensures k <= |names|
    ensures forall i :: 0 <= i < k ==> !(IsOutput(names[i]) && names[i] in failing)
    ensures k < |names| ==> IsOutput(names[k]) && names[k] in failing
  {
    if |names| == 0 then 0
    else if IsOutput(names[0]) && names[0] in failing then 0
    else 1 + FirstFailure(names[1..], failing)
  }

  /** `clear_corr` as written, with no handler around the removal: outputs
      are removed in listing order until one fails, and that failure escapes
      as an exception (`Some(name)`), skipping the report and the refresh. */
  method ClearStrict(names: seq<string>, failing: set<string>) returns (removed: seq<string>, failure: Option<string>)
    ensures failure.None? <==> FirstFailure(names, failing) == |names|
    ensures failure.Some? ==> failure.value in failing && IsOutput(failure.value)
    ensures failure.Some? ==> failure.value == names[FirstFailure(names, failing)]
    ensures removed == Removable(names[..FirstFailure(names, failing)], failing)
  {
    removed := [];
    failure := None;
    var i := 0;
    ghost var k := FirstFailure(names, failing);
    while i < |names|
      invariant 0 <= i <= k
      invariant removed == Removable(names[..i], failing)
    {
      var name := names[i];
      assert names[..i + 1][..i] == names[..i];
      if IsOutput(name) {
        if name in failing {
          failure := Some(name);
          return;
        }
        removed := removed + [name];
      }
      i := i + 1;
    }
  }

  /** When no output's removal fails, the strict clear runs to the end and
      removes exactly what the tolerant clear removes. */
  lemma StrictWithoutFailures(names: seq<string>, failing: set<string>)
    requires forall i :: 0 <= i < |names| ==> !(IsOutput(names[i]) && names[i] in failing)
    ensures FirstFailure(names, failing) == |names|
    ensures Removable(names[..FirstFailure(names, failing)], failing) == Removable(names, failing)
  {
    assert names[..|names|] == names;
  }
}

=== FILE: decimal.dfy ===
/** Decimal rendering of counts, as Python's `f"{n}"` writes a
    non-negative `int`, and its inverse. */
module Decimal {

  predicate IsDigit(c: char) {
    '0' <= c <= '9'
  }

  predicate AllDigits(s: string) {
    forall i :: 0 <= i < |s| ==> IsDigit(s[i])
  }

  function DigitChar(d: nat): (c: char)
    requires d < 10
    ensures IsDigit(c)
  {
    (('0' as int) + d) as char
  }

  function DigitValue(c: char): (d: nat)
    requires IsDigit(c)
    ensures d < 10
  {
    (c as int) - ('0' as int)
  }

  /** `str(n)`: at least one digit and no leading zero. */
  function NatToString(n: nat): (s: string)
    ensures |s| >= 1
    ensures AllDigits(s)
    ensures s[0] == '0' ==> n == 0
    ensures n < 10 <==> |s| == 1
  {
    if n < 10 then [DigitChar(n)]
    else NatToString(n / 10) + [DigitChar(n % 10)]
  }

  /** `int(s)` on a string of decimal digits. */
  function ParseNat(s: string): nat
    requires AllDigits(s)
  {
    if |s| == 0 then 0
    else 10 * ParseNat(s[..|s| - 1]) + DigitValue(s[|s| - 1])
  }

  /** Reading a rendered count gives the count back. */
  lemma {:induction false} ParseNatToString(n: nat)
    ensures ParseNat(NatToString(n)) == n
  {
    var s := NatToString(n);
    if n >= 10 {
      assert s[..|s| - 1] == NatToString(n / 10);
      ParseNatToString(n / 10);
    }
  }

  /** Distinct counts render differently. */
  lemma NatToStringInjective(m: nat, n: nat)
    requires NatToString(m) == NatToString(n)
    ensures m == n
  {
    ParseNatToString(m);
    ParseNatToString(n);
  }
}

=== FILE: gallery.dfy ===
/** The image gallery. The viewer runs two copies of it, one over the
    `plots` directory and one over `correlation_matrix`, which differ only in
    their texts; both are this module, parameterised by a `Kind`. A gallery
    keeps the sorted list of `.png` paths found at the last refresh and the
    index of the image on show. A timer polls the directory, and buttons step
    through the list. Image decoding is not modelled: whether the file on show
    decodes right now is an input. */
module Gallery {
  import opened Wrappers
  import opened Text
  import opened Order
  import opened Decimal
  import opened Sidecar

  /** The texts that tell the two galleries apart. */
  datatype Kind = Kind(prefix: string, placeholder: string, emptyStatus: string)

  const Plots: Kind := Kind("Plot", "No plots available", "No plots to display")
  const Matrices: Kind :=
    Kind("Matrix", "No correlation matrices available", "No correlation matrices to display")

  /** The file list and the current index (a module-level global in the
      viewer, starting at 0). */
  datatype Gallery = Gallery(files: seq<string>, index: int)

  const Initial: Gallery := Gallery([], 0)

  datatype Button = Normal | Disabled

  /** What the canvas holds: nothing yet, a decoded image, or placeholder text. */
  datatype Canvas = Blank | Picture(path: string) | Placeholder(text: string)

  /** Everything a gallery shows: canvas, status line, the two navigation
      buttons and the metadata box. */
  datatype View = View(canvas: Canvas, status: string, prev: Button, next: Button, metadata: string)

  /** The full paths of the listed names that end in `.png`, in listing order. */
  function PngPaths(dir: string, names: seq<string>): (r: seq<string>)
    ensures |r| <= |names|
    ensures forall i :: 0 <= i < |r| ==> EndsWith(r[i], ".png")
  {
    if |names| == 0 then []
    else
      var rest := PngPaths(dir, names[1..]);
      if EndsWith(names[0], ".png") then
        var p := PathJoin(dir, names[0]);
        assert EndsWith(p, ".png") by {
          assert p[|p| - 4..] == names[0][|names[0]| - 4..];
        }
        [p] + rest
      else rest
  }

  /** A path is among the filtered paths exactly when some listed `.png`
      name joins to it. */
  lemma {:induction false} PngPathsMembers(dir: string, names: seq<string>, p: string)
    ensures p in PngPaths(dir, names)
            <==> exists n :: n in names && EndsWith(n, ".png") && p == PathJoin(dir, n)
    decreases |names|
  {
    if |names| > 0 {
      var x := names[0];
      var rest := names[1..];
      PngPathsMembers(dir, rest, p);
      assert names == [x] + rest;
      if exists n :: n in names && EndsWith(n, ".png") && p == PathJoin(dir, n) {
        var n :| n in names && EndsWith(n, ".png") && p == PathJoin(dir, n);
        if n != x {
          assert n in rest;
        }
      }
      if p in PngPaths(dir, names) && p !in PngPaths(dir, rest) {
        assert x in names && EndsWith(x, ".png") && p == PathJoin(dir, x);
      }
    }
  }

  /** `refresh_*_list`: when the directory exists, the list becomes its `.png`
      entries as full paths, sorted; when it does not, nothing changes. The
      index is never touched. */
  function Refresh(g: Gallery, dir: string, listing: Option<seq<string>>): (r: Gallery)
    ensures r.index == g.index
    ensures listing.None? ==> r == g
    ensures listing.Some? ==> Sorted(r.files)
    ensures listing.Some? ==> multiset(r.files) == multiset(PngPaths(dir, listing.value))
  {
    match listing
    case None => g
    case Some(names) => Gallery(Sort(PngPaths(dir, names)), g.index)
  }

  /** The index correction in `update_*`: an index past the end of a
      non-empty list moves to the last entry; otherwise it stays. */
  function Clamp(g: Gallery): (r: Gallery)
    ensures r.files == g.files
    ensures |g.files| > 0 && g.index >= |g.files| ==> r.index == |g.files| - 1
    ensures g.index < |g.files| || |g.files| == 0 ==> r.index == g.index
  {
    if |g.files| > 0 && g.index >= |g.files| then g.(index := |g.files| - 1) else g
  }

  /** One poll of the directory: refresh, then clamp. */
  function Poll(g: Gallery, dir: string, listing: Option<seq<string>>): (r: Gallery)
    ensures r.files == Refresh(g, dir, listing).files
    ensures |r.files| > 0 && 0 <= g.index < |r.files| ==> r.index == g.index
    ensures |r.files| > 0 && g.index >= |r.files| ==> r.index == |r.files| - 1
    ensures |r.files| == 0 ==> r.index == g.index
    ensures g.index >= 0 ==> r.index >= 0
    ensures g.index >= 0 && |r.files| > 0 ==> r.index < |r.files|
  {
    Clamp(Refresh(g, dir, listing))
  }

  /** The index `update_*` asks to show after a poll: the current one, or
      `-1` (nothing) when the list is empty. */
  function Target(g: Gallery): int {
    if |g.files| > 0 then g.index else -1
  }

  /** `next_*`: step forward unless already at (or past) the last entry. */
  function Next(g: Gallery): (r: Gallery)
    ensures r.files == g.files
    ensures r.index != g.index <==> g.index < |g.files| - 1
    ensures r.index != g.index ==> r.index == g.index + 1
    ensures 0 <= g.index < |g.files| ==> 0 <= r.index < |g.files|
  {
    if g.index < |g.files| - 1 then g.(index := g.index + 1) else g
  }

  /** `prev_*`: step back unless already at (or below) the first entry. */
  function Prev(g: Gallery): (r: Gallery)
    ensures r.files == g.files
    ensures r.index != g.index <==> g.index > 0
    ensures r.index != g.index ==> r.index == g.index - 1
    ensures 0 <= g.index < |g.files| ==> 0 <= r.index < |g.files|
    ensures g.index >= 0 ==> r.index >= 0
  {
    if g.index > 0 then g.(index := g.index - 1) else g
  }

  /** The status line for entry `pos` (counted from 1) of `count`. */
  function StatusText(prefix: string, pos: nat, count: nat, name: string): string {
    prefix + " " + (NatToString(pos) + (" of " + (NatToString(count) + (": " + name))))
  }

  /** `s` starts with `p`. */
  predicate StartsWith(s: string, p: string) {
    |p| <= |s| && s[..|p|] == p
  }

  /** Reads a status line back: the position, the count and the file name. */
  function ParseStatus(prefix: string, s: string): Option<(nat, nat, string)> {
    var head := prefix + " ";
    if !StartsWith(s, head) then None else ParseBody(s[|head|..])
  }

  /** Reads `"<pos> of <count>: <name>"`. */
  function ParseBody(a: string): Option<(nat, nat, string)> {
    var i := IndexOf(a, ' ');
    if i == 0 || !AllDigits(a[..i]) || !StartsWith(a[i..], " of ") then None
    else
      match ParseCount(a[i + 4..])
      case None => None
      case Some((count, name)) => Some((ParseNat(a[..i]), count, name))
  }

  /** Reads `"<count>: <name>"`. */
  function ParseCount(b: string): Option<(nat, string)> {
    var j := IndexOf(b, ':');
    if j == 0 || !AllDigits(b[..j]) || !StartsWith(b[j..], ": ") then None
    else Some((ParseNat(b[..j]), b[j + 2..]))
  }

  lemma DigitsFreeOf(n: nat, c: char)
    requires !IsDigit(c)
    ensures c !in NatToString(n)
  {
  }

  lemma ParseCountRoundTrip(count: nat, name: string)
    ensures ParseCount(NatToString(count) + (": " + name)) == Some((count, name))
  {
    var c := NatToString(count);
    var b := c + (": " + name);
    DigitsFreeOf(count, ':');
    IndexOfPrefix(c, ':', ": " + name);
    assert b[..|c|] == c;
    assert b[|c|..] == ": " + name;
    assert b[|c|..][..2] == ": ";
    assert b[|c| + 2..] == name;
    ParseNatToString(count);
  }

  lemma ParsePositionRoundTrip(p: string, tail: string)
    requires |p| > 0 && AllDigits(p)
    ensures var a := p + (" of " + tail);
            && IndexOf(a, ' ') == |p|
            && a[..|p|] == p
            && StartsWith(a[|p|..], " of ")
            && a[|p| + 4..] == tail
  {
    var a := p + (" of " + tail);
    assert ' ' !in p by {
      forall i | 0 <= i < |p| ensures p[i] != ' ' { assert IsDigit(p[i]); }
    }
    IndexOfPrefix(p, ' ', " of " + tail);
    assert a[|p|..] == " of " + tail;
    assert a[|p|..][..4] == " of ";
  }

  lemma StripHead(head: string, a: string)
    ensures StartsWith(head + a, head)
    ensures (head + a)[|head|..] == a
  {
    assert (head + a)[..|head|] == head;
  }

  lemma ParseBodyOf(p: string, tail: string)
    requires |p| > 0 && AllDigits(p)
    ensures ParseBody(p + (" of " + tail))
            == match ParseCount(tail)
               case None => None
               case Some((count, name)) => Some((ParseNat(p), count, name))
  {
    ParsePositionRoundTrip(p, tail);
  }

  lemma BodyRoundTrip(pos: nat, count: nat, name: string)
    ensures ParseBody(NatToString(pos) + (" of " + (NatToString(count) + (": " + name))))
            == Some((pos, count, name))
  {
    var p := NatToString(pos);
    ParseCountRoundTrip(count, name);
    ParseNatToString(pos);
    ParseBodyOf(p, NatToString(count) + (": " + name));
  }

  /** The status line determines the position, the count and the file name:
      reading it back gives them, whatever the name. */
  lemma StatusRoundTrip(prefix: string, pos: nat, count: nat, name: string)
    ensures ParseStatus(prefix, StatusText(prefix, pos, count, name)) == Some((pos, count, name))
  {
    var body := NatToString(pos) + (" of " + (NatToString(count) + (": " + name)));
    assert StatusText(prefix, pos, count, name) == (prefix + " ") + body;
    StripHead(prefix + " ", body);
    BodyRoundTrip(pos, count, name);
  }

  /** The view of an empty gallery: placeholder text, both buttons off, and
      the "no metadata" text. */
  function EmptyView(kind: Kind): View {
    View(Placeholder(kind.placeholder), kind.emptyStatus, Disabled, Disabled, NoMetadata)
  }

  /** `show_*(index)`. For an index inside the list, when the image decodes,
      the canvas shows it, the status names it, its sidecar fills the
      metadata box and each button is enabled exactly when there is an entry
      on its side; when it does not decode, the exception is swallowed and
      the previous view stays. Any other index shows the empty view. */
  function Show(kind: Kind, files: seq<string>, index: int, decoded: bool, store: Store, view: View): (v: View)
    ensures !(0 <= index < |files|) ==> v == EmptyView(kind)
    ensures 0 <= index < |files| && !decoded ==> v == view
    ensures 0 <= index < |files| && decoded ==>
              && v.canvas == Picture(files[index])
              && v.status == StatusText(kind.prefix, index + 1, |files|, Basename(files[index]))
              && v.metadata == FormatMetadata(LoadSidecar(Some(files[index]), store))
              && (v.prev == Normal <==> index > 0)
              && (v.next == Normal <==> index < |files| - 1)
  {
    if 0 <= index < |files| then
      if decoded then
        var path := files[index];
        View(Picture(path),
             StatusText(kind.prefix, index + 1, |files|, Basename(path)),
             if index > 0 then Normal else Disabled,
             if index < |files| - 1 then Normal else Disabled,
             FormatMetadata(LoadSidecar(Some(path), store)))
      else view
    else EmptyView(kind)
  }

  /** `v` is the view `before` or one that belongs to `kind`: its "nothing to
      display" view, or a status line that names an entry of that kind. */
  predicate ViewOf(kind: Kind, before: View, v: View) {
    v == before || v == EmptyView(kind) || StartsWith(v.status, kind.prefix + " ")
  }

  /** Whatever `Show` draws belongs to the kind it was given. */
  lemma ShowViewOf(kind: Kind, files: seq<string>, index: int, decoded: bool, store: Store, view: View)
    ensures ViewOf(kind, view, Show(kind, files, index, decoded, store, view))
  {
    if 0 <= index < |files| && decoded {
      var head := kind.prefix + " ";
      var s := StatusText(kind.prefix, index + 1, |files|, Basename(files[index]));
      assert s[..|head|] == head;
    }
  }

  /** The status of a shown image reads back as its position counted from 1,
      the number of images, and its file name. */
  lemma ShowStatus(kind: Kind, files: seq<string>, index: int, store: Store, view: View)
    requires 0 <= index < |files|
    ensures ParseStatus(kind.prefix, Show(kind, files, index, true, store, view).status)
            == Some((index + 1, |files|, Basename(files[index])))
  {
    StatusRoundTrip(kind.prefix, index + 1, |files|, Basename(files[index]));
  }

  /** Each navigation button of a shown image is enabled exactly when
      pressing it would move. */
  lemma ButtonsMatchNavigation(kind: Kind, g: Gallery, store: Store, view: View)
    requires 0 <= g.index < |g.files|
    ensures var v := Show(kind, g.files, g.index, true, store, view);
            && (v.next == Normal <==> Next(g) != g)
            && (v.prev == Normal <==> Prev(g) != g)
  {
  }

  /** `update_*` (one timer tick): poll, then show the clamped index, or the
      empty view when there are no images. */
  function PollStep(kind: Kind, dir: string, g: Gallery, listing: Option<seq<string>>,
                    decoded: bool, store: Store, view: View): (r: (Gallery, View))
    ensures r.0 == Poll(g, dir, listing)
    ensures |r.0.files| == 0 ==> r.1 == EmptyView(kind)
    ensures g.index >= 0 && |r.0.files| > 0 && decoded ==> r.1.canvas == Picture(r.0.files[r.0.index])
    ensures g.index >= 0 && |r.0.files| > 0 && !decoded ==> r.1 == view
    ensures r.1 == Show(kind, r.0.files, Target(r.0), decoded, store, view)
  {
    var g' := Poll(g, dir, listing);
    (g', Show(kind, g'.files, Target(g'), decoded, store, view))
  }

  /** `next_*`: move forward and show the new entry; at the end nothing
      happens, not even a redraw. */
  function NextStep(kind: Kind, g: Gallery, decoded: bool, store: Store, view: View): (r: (Gallery, View))
    ensures r.0 == Next(g)
    ensures r.0 == g ==> r.1 == view
    ensures r.0 != g ==> r.1 == Show(kind, g.files, g.index + 1, decoded, store, view)
  {
    var g' := Next(g);
    if g'.index != g.index then (g', Show(kind, g'.files, g'.index, decoded, store, view))
    else (g, view)
  }

  /** `prev_*`: move back and show the new entry; at the start nothing
      happens. */
  function PrevStep(kind: Kind, g: Gallery, decoded: bool, store: Store, view: View): (r: (Gallery, View))
    ensures r.0 == Prev(g)
    ensures r.0 == g ==> r.1 == view
    ensures r.0 != g ==> r.1 == Show(kind, g.files, g.index - 1, decoded, store, view)
  {
    var g' := Prev(g);
    if g'.index != g.index then (g', Show(kind, g'.files, g'.index, decoded, store, view))
    else (g, view)
  }

  /** The refreshed list holds exactly the listed `.png` entries, as paths
      inside the directory. */
  lemma RefreshMembers(g: Gallery, dir: string, names: seq<string>, p: string)
    ensures p in Refresh(g, dir, Some(names)).files
            <==> exists n :: n in names && EndsWith(n, ".png") && p == PathJoin(dir, n)
  {
    PngPathsMembers(dir, names, p);
    var r := Refresh(g, dir, Some(names));
    assert p in r.files <==> p in multiset(r.files);
    assert p in PngPaths(dir, names) <==> p in multiset(PngPaths(dir, names));
  }

  /** Filtering a listing made of two parts filters each part. */
  lemma {:induction false} PngPathsAppend(dir: string, a: seq<string>, b: seq<string>)
    ensures PngPaths(dir, a + b) == PngPaths(dir, a) + PngPaths(dir, b)
    decreases |a|
  {
    if |a| > 0 {
      assert (a + b)[0] == a[0];
      assert (a + b)[1..] == a[1..] + b;
      PngPathsAppend(dir, a[1..], b);
    } else {
      assert a + b == b;
    }
  }

  lemma PngPathsRemoveAt(dir: string, b: seq<string>, k: nat)
    requires k < |b|
    ensures multiset(PngPaths(dir, b))
            == multiset(PngPaths(dir, [b[k]])) + multiset(PngPaths(dir, b[..k] + b[k + 1..]))
  {
    assert b == b[..k] + ([b[k]] + b[k + 1..]);
    PngPathsAppend(dir, b[..k], [b[k]] + b[k + 1..]);
    PngPathsAppend(dir, [b[k]], b[k + 1..]);
    PngPathsAppend(dir, b[..k], b[k + 1..]);
  }

  lemma MultisetRemoveAt(b: seq<string>, k: nat)
    requires k < |b|
    ensures multiset(b[..k] + b[k + 1..]) == multiset(b) - multiset{b[k]}
  {
    assert b == b[..k] + [b[k]] + b[k + 1..];
  }

  lemma PngPathsHead(dir: string, a: seq<string>)
    requires |a| > 0
    ensures multiset(PngPaths(dir, a)) == multiset(PngPaths(dir, [a[0]])) + multiset(PngPaths(dir, a[1..]))
  {
    assert [a[0]][1..] == [];
  }

  lemma PositionOf(b: seq<string>, x: string) returns (k: nat)
    requires x in multiset(b)
    ensures k < |b| && b[k] == x
  {
    k :| 0 <= k < |b| && b[k] == x;
  }

  /** The filtered paths do not depend on the order of the listing. */
  lemma {:induction false} PngPathsPermutation(dir: string, a: seq<string>, b: seq<string>)
    requires multiset(a) == multiset(b)
    ensures multiset(PngPaths(dir, a)) == multiset(PngPaths(dir, b))
    decreases |a|
  {
    if |a| > 0 {
      var x := a[0];
      var k := PositionOf(b, x);
      var rest := b[..k] + b[k + 1..];
      MultisetRemoveAt(b, k);
      MultisetTailOf(a);
      PngPathsPermutation(dir, a[1..], rest);
      PngPathsRemoveAt(dir, b, k);
      PngPathsHead(dir, a);
    }
  }

  /** When the directory only gains entries between two refreshes, every
      previously listed image stays listed, the list does not shrink, and it
      is still sorted. */
  lemma RefreshGrows(g: Gallery, dir: string, earlier: seq<string>, added: seq<string>, now: seq<string>)
    requires multiset(now) == multiset(earlier + added)
    ensures var before := Refresh(g, dir, Some(earlier)).files;
            var after := Refresh(g, dir, Some(now)).files;
            && multiset(before) <= multiset(after)
            && |before| <= |after|
            && Sorted(after)
  {
    PngPathsPermutation(dir, now, earlier + added);
    PngPathsAppend(dir, earlier, added);
    var before := Refresh(g, dir, Some(earlier)).files;
    var after := Refresh(g, dir, Some(now)).files;
    assert multiset(after) == multiset(before) + multiset(PngPaths(dir, added));
    assert |multiset(before)| <= |multiset(after)|;
  }

  /** Polling an unchanged directory again changes nothing: the same list,
      the same index and the same view (no flicker, no index movement). */
  lemma PollIdempotent(kind: Kind, dir: string, g: Gallery, listing: Option<seq<string>>,
                       decoded: bool, store: Store, view: View)
    ensures var (g1, v1) := PollStep(kind, dir, g, listing, decoded, store, view);
            PollStep(kind, dir, g1, listing, decoded, store, v1) == (g1, v1)
  {
    var g1 := Poll(g, dir, listing);
    PollFixed(g, dir, listing);
    ShowAgain(kind, g1.files, Target(g1), decoded, store, view);
  }

  /** A polled gallery is left as it is by a poll of the same directory. */
  lemma PollFixed(g: Gallery, dir: string, listing: Option<seq<string>>)
    ensures Poll(Poll(g, dir, listing), dir, listing) == Poll(g, dir, listing)
  {
    var g1 := Poll(g, dir, listing);
    assert Refresh(g1, dir, listing) == g1;
  }

  /** Showing the same entry again gives the same view. */
  lemma ShowAgain(kind: Kind, files: seq<string>, index: int, decoded: bool, store: Store, view: View)
    ensures var v := Show(kind, files, index, decoded, store, view);
            Show(kind, files, index, decoded, store, v) == v
  {
  }

  /** A step forward that moves is undone by a step back, and a step back
      that moves is undone by a step forward, for an index in range. */
  lemma NextPrevInverse(g: Gallery)
    requires 0 <= g.index < |g.files|
    ensures Next(g) != g ==> Prev(Next(g)) == g
    ensures Prev(g) != g ==> Next(Prev(g)) == g
  {
  }

  /** Pressing "next" `k` times lands on `min(index + k, last)`: navigation
      saturates at the end. From the last entry, or from an index past the
      end as a clear leaves it, nothing moves at all. */
  lemma {:induction false} NextRepeated(g: Gallery, k: nat)
    ensures NextN(g, k).files == g.files
    ensures g.index < |g.files| ==>
              NextN(g, k).index == if g.index + k < |g.files| then g.index + k else |g.files| - 1
    ensures g.index >= |g.files| - 1 ==> NextN(g, k) == g
  {
    if k > 0 {
      NextRepeated(g, k - 1);
    }
  }

  /** `k` presses of "next". */
  function NextN(g: Gallery, k: nat): Gallery {
    if k == 0 then g else Next(NextN(g, k - 1))
  }

  /** Pressing "prev" `k` times from any non-negative index lands on
      `max(index - k, 0)`; the index may be past the end of the list, as it
      is after a clear shrinks the list. */
  lemma {:induction false} PrevRepeated(g: Gallery, k: nat)
    requires 0 <= g.index
    ensures PrevN(g, k).files == g.files
    ensures PrevN(g, k).index == if g.index - k >= 0 then g.index - k else 0
  {
    if k > 0 {
      PrevRepeated(g, k - 1);
    }
  }

  /** `k` presses of "prev". */
  function PrevN(g: Gallery, k: nat): Gallery {
    if k == 0 then g else Prev(PrevN(g, k - 1))
  }
}

=== FILE: order.dfy ===
/** The order Python's `sorted` puts strings in: lexicographic by code
    point, a proper prefix before any of its extensions. Sorting and the
    sorted key list of a map are defined here once and used by the gallery
    refresh and by the metadata formatter. */
module Order {

  /** `a <= b` on Python strings. */
  predicate LessEq(a: string, b: string)
    decreases |a|
  {
    |a| == 0 || (|b| > 0 && (a[0] < b[0] || (a[0] == b[0] && LessEq(a[1..], b[1..]))))
  }

  lemma {:induction false} Reflexive(a: string)
    ensures LessEq(a, a)
    decreases |a|
  {
    if |a| > 0 {
      Reflexive(a[1..]);
    }
  }

  lemma {:induction false} Total(a: string, b: string)
    ensures LessEq(a, b) || LessEq(b, a)
    decreases |a|
  {
    if |a| > 0 && |b| > 0 && a[0] == b[0] {
      Total(a[1..], b[1..]);
    }
  }

  lemma {:induction false} Transitive(a: string, b: string, c: string)
    requires LessEq(a, b) && LessEq(b, c)
    ensures LessEq(a, c)
    decreases |a|
  {
    if |a| > 0 && a[0] == b[0] && b[0] == c[0] {
      Transitive(a[1..], b[1..], c[1..]);
    }
  }

  lemma {:induction false} Antisymmetric(a: string, b: string)
    requires LessEq(a, b) && LessEq(b, a)
    ensures a == b
    decreases |a|
  {
    if |a| > 0 {
      Antisymmetric(a[1..], b[1..]);
      assert a == [a[0]] + a[1..];
      assert b == [b[0]] + b[1..];
    }
  }

  lemma AntisymmetricAll()
    ensures forall a, b :: LessEq(a, b) && LessEq(b, a) ==> a == b
  {
    forall a, b | LessEq(a, b) && LessEq(b, a)
      ensures a == b
    {
      Antisymmetric(a, b);
    }
  }

  /** Prepending the same directory to two names does not change their order,
      so sorting joined paths sorts by file name. */
  lemma {:induction false} CommonPrefix(p: string, a: string, b: string)
    ensures LessEq(p + a, p + b) <==> LessEq(a, b)
    decreases |p|
  {
    if |p| > 0 {
      assert (p + a)[1..] == p[1..] + a;
      assert (p + b)[1..] == p[1..] + b;
      CommonPrefix(p[1..], a, b);
    } else {
      assert p + a == a;
      assert p + b == b;
    }
  }

  /** Ascending order, duplicates allowed. */
  predicate Sorted(s: seq<string>) {
    forall i, j :: 0 <= i < j < |s| ==> LessEq(s[i], s[j])
  }

  /** A sorted sequence stays sorted with an element in front that does
      not exceed any of its elements. */
  lemma ConsSorted(y: string, t: seq<string>)
    requires Sorted(t)
    requires forall j :: 0 <= j < |t| ==> LessEq(y, t[j])
    ensures Sorted([y] + t)
  {
  }

  /** An element not exceeding the head of a sorted sequence exceeds none
      of it. */
  lemma BelowHead(x: string, s: seq<string>)
    requires Sorted(s) && |s| > 0 && LessEq(x, s[0])
    ensures forall j :: 0 <= j < |s| ==> LessEq(x, s[j])
  {
    forall j | 0 <= j < |s| ensures LessEq(x, s[j]) {
      if j > 0 { Transitive(x, s[0], s[j]); }
    }
  }

  /** The head of a sorted sequence does not exceed any element of a
      permutation of its tail with one more element not below the head. */
  lemma HeadBelowAll(s: seq<string>, x: string, t: seq<string>)
    requires Sorted(s) && |s| > 0 && LessEq(s[0], x)
    requires multiset(t) == multiset(s[1..]) + multiset{x}
    ensures forall j :: 0 <= j < |t| ==> LessEq(s[0], t[j])
  {
    forall j | 0 <= j < |t| ensures LessEq(s[0], t[j]) {
      assert t[j] in multiset(t);
      if t[j] != x {
        assert t[j] in multiset(s[1..]);
        var k :| 0 <= k < |s[1..]| && s[1..][k] == t[j];
        assert s[k + 1] == t[j];
      }
    }
  }

  /** Insert `x` into a sorted sequence, before the first element it does not
      exceed. */
  function Insert(x: string, s: seq<string>): (r: seq<string>)
    requires Sorted(s)
    ensures Sorted(r)
    ensures multiset(r) == multiset(s) + multiset{x}
  {
    if |s| == 0 then [x]
    else if LessEq(x, s[0]) then
      BelowHead(x, s);
      ConsSorted(x, s);
      [x] + s
    else
      var t := Insert(x, s[1..]);
      assert s == [s[0]] + s[1..];
      Total(x, s[0]);
      HeadBelowAll(s, x, t);
      ConsSorted(s[0], t);
      [s[0]] + t
  }

  /** `sorted(s)`: the ascending permutation of `s` (insertion sort). */
  function Sort(s: seq<string>): (r: seq<string>)
    ensures Sorted(r)
    ensures multiset(r) == multiset(s)
  {
    if |s| == 0 then []
    else
      assert s == [s[0]] + s[1..];
      Insert(s[0], Sort(s[1..]))
  }

  /** Two sorted sequences holding the same elements are equal: the sorted
      order of a collection does not depend on the order it was listed in. */
  lemma {:induction false} SortedUnique(a: seq<string>, b: seq<string>)
    requires Sorted(a) && Sorted(b)
    requires multiset(a) == multiset(b)
    ensures a == b
    decreases |a|
  {
    if |a| > 0 {
      assert a[0] in multiset(b);
      SameHead(a, b);
      SameHead(b, a);
      Antisymmetric(a[0], b[0]);
      MultisetTailOf(a);
      MultisetTailOf(b);
      SortedTail(a);
      SortedTail(b);
      SortedUnique(a[1..], b[1..]);
      assert a == [a[0]] + a[1..];
      assert b == [b[0]] + b[1..];
    }
  }

  /** The head of a sorted sequence does not exceed the head of any
      permutation of it. */
  lemma SameHead(a: seq<string>, b: seq<string>)
    requires Sorted(a) && |a| > 0 && |b| > 0
    requires multiset(a) == multiset(b)
    ensures LessEq(a[0], b[0])
  {
    assert b[0] in multiset(a);
    var i :| 0 <= i < |a| && a[i] == b[0];
    Reflexive(a[0]);
  }

  lemma SortedTail(a: seq<string>)
    requires Sorted(a) && |a| > 0
    ensures Sorted(a[1..])
  {
    assert forall i :: 0 <= i < |a| - 1 ==> a[1..][i] == a[i + 1];
  }

  lemma MultisetTailOf(a: seq<string>)
    requires |a| > 0
    ensures multiset(a[1..]) == multiset(a) - multiset{a[0]}
  {
    assert a == [a[0]] + a[1..];
  }

  /** Sorting a listing gives the same result whatever order it came in. */
  lemma SortIgnoresListingOrder(a: seq<string>, b: seq<string>)
    requires multiset(a) == multiset(b)
    ensures Sort(a) == Sort(b)
  {
    SortedUnique(Sort(a), Sort(b));
  }

  /** `k` is the least element of `keys`. */
  predicate IsLeast(k: string, keys: set<string>) {
    k in keys && forall j :: j in keys ==> LessEq(k, j)
  }

  lemma {:induction false} LeastExists(keys: set<string>)
    requires keys != {}
    ensures exists k :: IsLeast(k, keys)
    decreases keys
  {
    var x :| x in keys;
    if keys == {x} {
      Reflexive(x);
      assert IsLeast(x, keys);
    } else {
      LeastExists(keys - {x});
      var m :| IsLeast(m, keys - {x});
      Total(m, x);
      if LessEq(m, x) {
        assert IsLeast(m, keys);
      } else {
        forall j | j in keys ensures LessEq(x, j) {
          if j == x { Reflexive(x); } else { Transitive(x, m, j); }
        }
        assert IsLeast(x, keys);
      }
    }
  }

  /** `sorted(d.keys())`: the keys of a map in ascending order, each once. */
  function SortedKeys(keys: set<string>): (r: seq<string>)
    ensures Sorted(r)
    ensures |r| == |keys|
    ensures forall k :: k in r <==> k in keys
    decreases keys
  {
    if keys == {} then []
    else
      LeastExists(keys);
      AntisymmetricAll();
      var k :| IsLeast(k, keys);
      var t := SortedKeys(keys - {k});
      assert Sorted([k] + t) by {
        forall j | 0 <= j < |t| ensures LessEq(k, t[j]) {
          assert t[j] in keys;
        }
      }
      [k] + t
  }
}

=== FILE: scenario.dfy ===
/** A worked scenario: a plots directory `dir` holding `a.png`, `b.png`,
    `c.png`, the sidecar `b.json` and a stray text file, listed in an
    arbitrary order. */
module Scenario {
  import opened Wrappers
  import opened Text
  import opened Order
  import opened Sidecar
  import opened Gallery
  import opened Clear

  /** The gallery the scenario expects after a refresh. */
  function Expected(dir: string): seq<string> {
    [PathJoin(dir, "a.png"), PathJoin(dir, "b.png"), PathJoin(dir, "c.png")]
  }

  lemma PngPathsCons(dir: string, x: string, rest: seq<string>)
    ensures PngPaths(dir, [x] + rest)
            == (if EndsWith(x, ".png") then [PathJoin(dir, x)] else []) + PngPaths(dir, rest)
  {
    assert ([x] + rest)[1..] == rest;
  }

  lemma ImagesTail(dir: string)
    ensures PngPaths(dir, ["a.png", "b.png"]) == [PathJoin(dir, "a.png"), PathJoin(dir, "b.png")]
  {
    assert EndsWith("b.png", ".png");
    PngPathsCons(dir, "b.png", []);
    assert ["b.png"] == ["b.png"] + [];
    assert EndsWith("a.png", ".png");
    PngPathsCons(dir, "a.png", ["b.png"]);
    assert ["a.png", "b.png"] == ["a.png"] + ["b.png"];
  }

  lemma ImagesMiddle(dir: string)
    ensures PngPaths(dir, ["b.json", "notes.txt", "a.png", "b.png"])
            == [PathJoin(dir, "a.png"), PathJoin(dir, "b.png")]
  {
    ImagesTail(dir);
    assert !EndsWith("notes.txt", ".png");
    PngPathsCons(dir, "notes.txt", ["a.png", "b.png"]);
    assert ["notes.txt", "a.png", "b.png"] == ["notes.txt"] + ["a.png", "b.png"];
    assert !EndsWith("b.json", ".png");
    PngPathsCons(dir, "b.json", ["notes.txt", "a.png", "b.png"]);
    assert ["b.json", "notes.txt", "a.png", "b.png"] == ["b.json"] + ["notes.txt", "a.png", "b.png"];
  }

  lemma ImagesOfListing(dir: string)
    ensures PngPaths(dir, ["c.png", "b.json", "notes.txt", "a.png", "b.png"])
            == [PathJoin(dir, "c.png"), PathJoin(dir, "a.png"), PathJoin(dir, "b.png")]
  {
    ImagesMiddle(dir);
    assert EndsWith("c.png", ".png");
    PngPathsCons(dir, "c.png", ["b.json", "notes.txt", "a.png", "b.png"]);
    assert ["c.png", "b.json", "notes.txt", "a.png", "b.png"]
           == ["c.png"] + ["b.json", "notes.txt", "a.png", "b.png"];
  }

  /** Paths in one directory compare as their names do. */
  lemma PathOrder(dir: string, a: string, b: string)
    ensures LessEq(PathJoin(dir, a), PathJoin(dir, b)) <==> LessEq(a, b)
  {
    CommonPrefix(dir + "/", a, b);
  }

  lemma SortPair(x: string, y: string)
    requires LessEq(x, y)
    ensures Sort([x, y]) == [x, y]
  {
    assert [x, y][1..] == [y];
    assert [y][1..] == [];
    assert Sort([y]) == Insert(y, []);
  }

  lemma InsertLast(z: string, x: string, y: string)
    requires LessEq(x, y) && !LessEq(z, x) && !LessEq(z, y)
    ensures Insert(z, [x, y]) == [x, y, z]
  {
    assert [x, y][1..] == [y];
    assert Insert(z, [y]) == [y] + Insert(z, []);
  }

  /** Insertion sort puts a first-listed largest element last. */
  lemma SortThree(x: string, y: string, z: string)
    requires LessEq(x, y) && !LessEq(z, x) && !LessEq(z, y)
    ensures Sort([z, x, y]) == [x, y, z]
  {
    assert [z, x, y][1..] == [x, y];
    SortPair(x, y);
    InsertLast(z, x, y);
  }

  /** The scenario's images in listing order sort to the expected gallery. */
  lemma SortedImages(dir: string)
    ensures Sort([PathJoin(dir, "c.png"), PathJoin(dir, "a.png"), PathJoin(dir, "b.png")]) == Expected(dir)
  {
    PathOrder(dir, "a.png", "b.png");
    PathOrder(dir, "c.png", "a.png");
    PathOrder(dir, "c.png", "b.png");
    assert LessEq("a.png", "b.png");
    assert !LessEq("c.png", "a.png") && !LessEq("c.png", "b.png");
    SortThree(PathJoin(dir, "a.png"), PathJoin(dir, "b.png"), PathJoin(dir, "c.png"));
  }

  /** The listing of the scenario. */
  function Listing(): seq<string> {
    ["c.png", "b.json", "notes.txt", "a.png", "b.png"]
  }

  /** A refresh lists the three images, as paths in the directory, sorted by
      name, whatever order the listing came in. */
  lemma RefreshScenario(g: Gallery, dir: string)
    ensures Refresh(g, dir, Some(Listing())).files == Expected(dir)
  {
    ImagesOfListing(dir);
    SortedImages(dir);
  }

  lemma SidecarOfJoin(dir: string, stem: string)
    ensures EndsWith(PathJoin(dir, stem + ".png"), ".png")
    ensures SidecarPath(PathJoin(dir, stem + ".png")) == PathJoin(dir, stem + ".json")
  {
    var p := PathJoin(dir, stem + ".png");
    assert p == (dir + "/" + stem) + ".png";
    assert p[..|p| - 4] == dir + "/" + stem;
  }

  /** The files beside the images: only `b.json`, holding
      `{"plot_type": "scan", "params": {"x": 1}}`. */
  function Files(dir: string): Store {
    map[PathJoin(dir, "b.json") := Some(ScanMeta())]
  }

  /** The sidecar of a one-letter image other than `b` is not there. */
  lemma NoOtherSidecar(dir: string, c: char)
    requires c != 'b'
    ensures EndsWith(PathJoin(dir, [c] + ".png"), ".png")
    ensures SidecarPath(PathJoin(dir, [c] + ".png")) !in Files(dir)
  {
    SidecarOfJoin(dir, [c]);
    var n := |dir| + 1;
    assert PathJoin(dir, [c] + ".json")[n] == c;
    assert PathJoin(dir, "b.json")[n] == 'b';
  }

  lemma SidecarOfB(dir: string)
    ensures EndsWith(Expected(dir)[1], ".png")
    ensures SidecarPath(Expected(dir)[1]) == PathJoin(dir, "b.json")
  {
    SidecarOfJoin(dir, "b");
    assert "b" + ".png" == "b.png" && "b" + ".json" == "b.json";
  }

  lemma NoSidecarOfA(dir: string)
    ensures EndsWith(Expected(dir)[0], ".png")
    ensures SidecarPath(Expected(dir)[0]) !in Files(dir)
  {
    NoOtherSidecar(dir, 'a');
    assert ['a'] + ".png" == "a.png";
  }

  lemma NoSidecarOfC(dir: string)
    ensures EndsWith(Expected(dir)[2], ".png")
    ensures SidecarPath(Expected(dir)[2]) !in Files(dir)
  {
    NoOtherSidecar(dir, 'c');
    assert ['c'] + ".png" == "c.png";
  }

  /** Showing the second image renders its sidecar; showing the first or the
      third renders the "no metadata" text. */
  lemma MetadataScenario(dir: string, view: View)
    ensures Show(Plots, Expected(dir), 1, true, Files(dir), view).metadata
            == "plot_type: scan" + "\n" + "" + "\n" + "params:" + "\n" + "  x: 1"
    ensures Show(Plots, Expected(dir), 0, true, Files(dir), view).metadata == NoMetadata
    ensures Show(Plots, Expected(dir), 2, true, Files(dir), view).metadata == NoMetadata
  {
    SidecarOfB(dir);
    NoSidecarOfA(dir);
    NoSidecarOfC(dir);
    assert LoadSidecar(Some(Expected(dir)[1]), Files(dir)) == Some(ScanMeta());
    ScanExample();
  }

  lemma RemovableSnoc(init: seq<string>, x: string, failing: set<string>)
    ensures Removable(init + [x], failing)
            == Removable(init, failing) + (if Removed(x, failing) then [x] else [])
    ensures Remaining(init + [x], failing)
            == Remaining(init, failing) + (if Removed(x, failing) then [] else [x])
  {
    assert (init + [x])[..|init|] == init;
  }

  lemma ClearTwo(a: string, b: string)
    requires Removed(a, {}) && Removed(b, {})
    ensures Removable([a, b], {}) == [a, b]
    ensures Remaining([a, b], {}) == []
  {
    RemovableSnoc([], a, {});
    assert [] + [a] == [a];
    RemovableSnoc([a], b, {});
    assert [a] + [b] == [a, b];
  }

  lemma ClearThree(a: string, b: string, c: string)
    requires Removed(a, {}) && Removed(b, {}) && !Removed(c, {})
    ensures Removable([a, b, c], {}) == [a, b]
    ensures Remaining([a, b, c], {}) == [c]
  {
    ClearTwo(a, b);
    RemovableSnoc([a, b], c, {});
    assert [a, b] + [c] == [a, b, c];
  }

  lemma ClearFour(a: string, b: string, c: string, d: string)
    requires Removed(a, {}) && Removed(b, {}) && !Removed(c, {}) && Removed(d, {})
    ensures Removable([a, b, c, d], {}) == [a, b, d]
    ensures Remaining([a, b, c, d], {}) == [c]
  {
    ClearThree(a, b, c);
    RemovableSnoc([a, b, c], d, {});
    assert [a, b, c] + [d] == [a, b, c, d];
  }

  /** A listing of five names where only the third is not an output. */
  lemma ClearFive(a: string, b: string, c: string, d: string, e: string)
    requires Removed(a, {}) && Removed(b, {}) && !Removed(c, {}) && Removed(d, {}) && Removed(e, {})
    ensures Removable([a, b, c, d, e], {}) == [a, b, d, e]
    ensures Remaining([a, b, c, d, e], {}) == [c]
  {
    ClearFour(a, b, c, d);
    RemovableSnoc([a, b, c, d], e, {});
    assert [a, b, c, d] + [e] == [a, b, c, d, e];
  }

  /** Which names of the listing are outputs. */
  lemma OutputsOfListing()
    ensures Removed("c.png", {}) && Removed("b.json", {}) && !Removed("notes.txt", {})
    ensures Removed("a.png", {}) && Removed("b.png", {})
  {
    assert "c.png"[1..] == ".png" && "a.png"[1..] == ".png" && "b.png"[1..] == ".png";
    assert "b.json"[1..] == ".json";
    assert "notes.txt"[5..] != ".png" && "notes.txt"[4..] != ".json";
  }

  /** Clearing removes the three images and the sidecar and keeps the text
      file. */
  lemma ClearScenario(names: seq<string>)
    requires names == Listing()
    ensures Removable(names, {}) == ["c.png", "b.json", "a.png", "b.png"]
    ensures Remaining(names, {}) == ["notes.txt"]
  {
    OutputsOfListing();
    ClearFive("c.png", "b.json", "notes.txt", "a.png", "b.png");
  }

  /** After the clear no image is left to list. */
  lemma RefreshAfterClear(g: Gallery, dir: string)
    ensures Refresh(g, dir, Some(Remaining(Listing(), {}))).files == []
  {
    ClearScenario(Listing());
    assert !EndsWith("notes.txt", ".png");
    PngPathsCons(dir, "notes.txt", []);
    assert ["notes.txt"] == ["notes.txt"] + [];
  }
}

=== FILE: sidecar.dfy ===
/** Sidecar metadata: for an image `X.png` the external simulation may
    write `X.json` beside it. The viewer loads that file, if it exists and
    parses, and renders it as text lines. JSON decoding itself is not
    modelled: a file's decoded content is an input. */
module Sidecar {
  import opened Wrappers
  import opened Text
  import opened Order

  /** A decoded JSON value: its rendering by Python's `str()` (as an f-string
      writes it) and, for a JSON object, its members. `Leaf` is every value
      that is not an object: a string, a number, a boolean, `null` or an
      array, all of which the viewer only renders. The rendering of an
      object depends on member order, which a map does not keep, so it is
      carried as given rather than computed. */
  datatype Value =
    | Leaf(text: string)
    | Object(text: string, fields: map<string, Value>)

  /** A decoded sidecar: a JSON object at top level. */
  type Meta = map<string, Value>

  /** The files the viewer can see. A path that is a key exists; its entry is
      the decoded object, or `None` when the file cannot be read or parsed. */
  type Store = map<string, Option<Meta>>

  const NoMetadata: string := "No metadata available for this image."

  /** Top-level keys rendered first, in this order, when present. */
  const PromotedKeys: seq<string> := ["plot_type", "timestamp", "metric", "png"]

  /** The sidecar of `X.png` is `X.json`: the image path without its last
      four characters, plus `.json`. */
  function SidecarPath(imagePath: string): (r: string)
    requires EndsWith(imagePath, ".png")
    ensures EndsWith(r, ".json")
    ensures |r| == |imagePath| + 1
    ensures r[..|r| - 5] == imagePath[..|imagePath| - 4]
  {
    imagePath[..|imagePath| - 4] + ".json"
  }

  /** The image a sidecar belongs to. */
  function ImagePath(sidecarPath: string): string
    requires EndsWith(sidecarPath, ".json")
  {
    sidecarPath[..|sidecarPath| - 5] + ".png"
  }

  /** Every image has its own sidecar: the image path is recovered from it. */
  lemma SidecarRoundTrip(imagePath: string)
    requires EndsWith(imagePath, ".png")
    ensures ImagePath(SidecarPath(imagePath)) == imagePath
  {
    var stem := imagePath[..|imagePath| - 4];
    assert imagePath == stem + ".png";
  }

  /** Two different images never share a sidecar. */
  lemma SidecarInjective(p: string, q: string)
    requires EndsWith(p, ".png") && EndsWith(q, ".png")
    requires SidecarPath(p) == SidecarPath(q)
    ensures p == q
  {
    SidecarRoundTrip(p);
    SidecarRoundTrip(q);
  }

  /** `load_sidecar_json(image_path)`: `None` for a missing (Python `None`)
      or empty path and for one not ending in `.png`; otherwise the decoded
      sidecar if that file exists and parses, and `None` if it does not. */
  function LoadSidecar(imagePath: Option<string>, store: Store): (r: Option<Meta>)
    ensures imagePath.None? || imagePath == Some("") ==> r.None?
    ensures imagePath.Some? && !EndsWith(imagePath.value, ".png") ==> r.None?
    ensures r.Some? ==> imagePath.Some? && EndsWith(imagePath.value, ".png")
                        && SidecarPath(imagePath.value) in store
                        && store[SidecarPath(imagePath.value)] == r
    ensures imagePath.Some? && EndsWith(imagePath.value, ".png") ==>
              (r.None? <==> SidecarPath(imagePath.value) !in store
                            || store[SidecarPath(imagePath.value)].None?)
  {
    match imagePath
    case None => None
    case Some(p) =>
      if |p| == 0 || !EndsWith(p, ".png") then None
      else
        var j := SidecarPath(p);
        if j !in store then None else store[j]
  }

  /** `f"{k}: {v}"`. */
  function Entry(k: string, v: Value): string {
    k + ": " + v.text
  }

  /** How many of `keys` are present in `meta`, counting repeats. */
  function PresentCount(meta: Meta, keys: seq<string>): (n: nat)
    ensures n <= |keys|
  {
    if |keys| == 0 then 0 else (if keys[0] in meta then 1 else 0) + PresentCount(meta, keys[1..])
  }

  /** The lines for those of `keys` present in `meta`, in the order of `keys`. */
  function PromotedLines(meta: Meta, keys: seq<string>): (r: seq<string>)
    ensures |r| == PresentCount(meta, keys)
    ensures (forall i :: 0 <= i < |keys| ==> keys[i] !in meta) <==> r == []
    ensures forall j :: 0 <= j < |keys| && keys[j] in meta ==> Entry(keys[j], meta[keys[j]]) in r
    ensures forall i :: 0 <= i < |r| ==>
              exists j :: 0 <= j < |keys| && keys[j] in meta && r[i] == Entry(keys[j], meta[keys[j]])
  {
    if |keys| == 0 then []
    else
      var rest := PromotedLines(meta, keys[1..]);
      assert forall i :: 1 <= i < |keys| ==> keys[i] == keys[1..][i - 1];
      if keys[0] in meta then [Entry(keys[0], meta[keys[0]])] + rest else rest
  }

  /** `f"  {k}: {v}"` for each of `keys`, in that order. */
  function IndentedLines(fields: map<string, Value>, keys: seq<string>): (r: seq<string>)
    requires forall i :: 0 <= i < |keys| ==> keys[i] in fields
    ensures |r| == |keys|
    ensures forall i :: 0 <= i < |keys| ==> r[i] == "  " + Entry(keys[i], fields[keys[i]])
  {
    if |keys| == 0 then []
    else ["  " + Entry(keys[0], fields[keys[0]])] + IndentedLines(fields, keys[1..])
  }

  /** `name` holds a non-empty JSON object. */
  predicate HasSection(meta: Meta, name: string) {
    name in meta && meta[name].Object? && meta[name].fields != map[]
  }

  /** The `params:` or `extra:` block: a blank line, the header, then one
      indented line per member; nothing unless the member is a non-empty
      object. */
  function Section(meta: Meta, name: string): (r: seq<string>)
    ensures !HasSection(meta, name) <==> r == []
    ensures HasSection(meta, name) ==>
              && |r| == 2 + |meta[name].fields|
              && r[0] == "" && r[1] == name + ":"
  {
    if !HasSection(meta, name) then []
    else
      var fields := meta[name].fields;
      ["", name + ":"] + IndentedLines(fields, SortedKeys(fields.Keys))
  }

  /** The member lines of a section name every member of the nested object
      exactly once, in ascending key order: there is an ascending, repetition
      free list of exactly the object's keys whose `i`-th key is rendered on
      line `i + 2`. */
  lemma SectionLayout(meta: Meta, name: string) returns (keys: seq<string>)
    requires HasSection(meta, name)
    ensures Sorted(keys)
    ensures |keys| == |meta[name].fields|
    ensures forall k :: k in keys <==> k in meta[name].fields
    ensures forall i :: 0 <= i < |keys| ==>
              keys[i] in meta[name].fields
              && Section(meta, name)[i + 2] == "  " + Entry(keys[i], meta[name].fields[keys[i]])
  {
    keys := SortedKeys(meta[name].fields.Keys);
  }

  /** All lines of the rendering of a non-empty sidecar. */
  function MetadataLines(meta: Meta): seq<string> {
    PromotedLines(meta, PromotedKeys) + Section(meta, "params") + Section(meta, "extra")
  }

  /** `format_metadata(meta)`. */
  function FormatMetadata(meta: Option<Meta>): (r: string)
    ensures meta.None? || meta == Some(map[]) ==> r == NoMetadata
    ensures meta.Some? && meta.value != map[] ==> r == Join(MetadataLines(meta.value), '\n')
  {
    if meta.None? || meta.value == map[] then NoMetadata
    else Join(MetadataLines(meta.value), '\n')
  }

  /** A non-empty sidecar with none of the rendered keys renders as the
      empty text (not as the "no metadata" message). */
  lemma NothingRecognised(meta: Meta)
    requires meta != map[]
    requires forall i :: 0 <= i < |PromotedKeys| ==> PromotedKeys[i] !in meta
    requires !HasSection(meta, "params") && !HasSection(meta, "extra")
    ensures FormatMetadata(Some(meta)) == ""
  {
  }

  /** When no rendered key or value contains a line break, the lines of the
      text are exactly the promoted entries, then the params block, then the
      extra block. */
  lemma FormatLines(meta: Meta)
    requires meta != map[]
    requires MetadataLines(meta) != []
    requires forall i :: 0 <= i < |MetadataLines(meta)| ==> '\n' !in MetadataLines(meta)[i]
    ensures Split(FormatMetadata(Some(meta)), '\n')
            == PromotedLines(meta, PromotedKeys) + Section(meta, "params") + Section(meta, "extra")
  {
    SplitJoin(MetadataLines(meta), '\n');
  }

  /** The sidecar `{"plot_type": "scan", "params": {"x": 1}}`. */
  function ScanMeta(): Meta {
    map["plot_type" := Leaf("scan"), "params" := Object("{'x': 1}", map["x" := Leaf("1")])]
  }

  lemma ScanPromoted()
    ensures PromotedLines(ScanMeta(), PromotedKeys) == ["plot_type: scan"]
  {
    var m := ScanMeta();
    var ks := PromotedKeys;
    assert ks == ["plot_type"] + ["timestamp", "metric", "png"];
    assert ks[1..] == ["timestamp"] + ["metric", "png"];
    assert ks[1..][1..] == ["metric"] + ["png"];
    assert ks[1..][1..][1..] == ["png"];
    assert ks[1..][1..][1..][1..] == [];
    assert "png" !in m;
    assert PromotedLines(m, ks[1..][1..][1..]) == [];
    assert "metric" !in m;
    assert PromotedLines(m, ks[1..][1..]) == [];
    assert "timestamp" !in m;
    assert PromotedLines(m, ks[1..]) == [];
    assert "plot_type" in m && m["plot_type"] == Leaf("scan");
    assert Entry("plot_type", Leaf("scan")) == "plot_type: scan";
  }

  lemma ScanSections()
    ensures Section(ScanMeta(), "params") == ["", "params:", "  x: 1"]
    ensures Section(ScanMeta(), "extra") == []
  {
    var fields := map["x" := Leaf("1")];
    assert ScanMeta()["params"] == Object("{'x': 1}", fields);
    assert "x" in fields;
    assert HasSection(ScanMeta(), "params");
    assert SortedKeys(fields.Keys) == ["x"] by {
      assert fields.Keys == {"x"};
      assert SortedKeys({"x"} - {"x"}) == [];
    }
    assert ["x"][1..] == [];
    assert IndentedLines(fields, []) == [];
    assert Entry("x", fields["x"]) == "x: 1";
    assert "  " + Entry("x", fields["x"]) == "  x: 1";
    assert IndentedLines(fields, ["x"]) == ["  x: 1"] + IndentedLines(fields, []);
    assert "params" + ":" == "params:";
    assert Section(ScanMeta(), "params")
           == ["", "params" + ":"] + IndentedLines(fields, SortedKeys(fields.Keys));
    assert "extra" !in ScanMeta();
  }

  lemma ScanLines()
    ensures MetadataLines(ScanMeta()) == ["plot_type: scan", "", "params:", "  x: 1"]
  {
    ScanPromoted();
    ScanSections();
  }

  /** The example sidecar renders as the entry line, a blank line, the
      params header and the indented member. */
  lemma ScanExample()
    ensures FormatMetadata(Some(ScanMeta()))
            == "plot_type: scan" + "\n" + "" + "\n" + "params:" + "\n" + "  x: 1"
  {
    assert ScanMeta() != map[] by {
      assert "plot_type" in ScanMeta();
    }
    ScanLines();
    JoinFour("plot_type: scan", "", "params:", "  x: 1");
  }

  lemma JoinFour(a: string, b: string, c: string, d: string)
    ensures Join([a, b, c, d], '\n') == a + "\n" + b + "\n" + c + "\n" + d
  {
    var l := [a, b, c, d];
    assert l[1..] == [b, c, d];
    assert l[1..][1..] == [c, d];
    assert l[1..][1..][1..] == [d];
    assert Join([d], '\n') == d;
    assert Join([c, d], '\n') == c + "\n" + d;
    assert Join([b, c, d], '\n') == b + "\n" + (c + "\n" + d);
    assert Join(l, '\n') == a + "\n" + (b + "\n" + (c + "\n" + d));
  }
}

=== FILE: text.dfy ===
/** String helpers with the meaning of the Python builtins the viewer uses:
    `str.endswith`, `"\n".join`, `str.split("\n")`, `os.path.join` and
    `os.path.basename` on POSIX paths. Strings are sequences of Unicode
    scalar values, as Python strings are sequences of code points. */
module Text {

  /** `s.endswith(suffix)`. */
  predicate EndsWith(s: string, suffix: string) {
    |suffix| <= |s| && s[|s| - |suffix|..] == suffix
  }

  /** `sep.join(parts)` for a one-character separator. */
  function Join(parts: seq<string>, sep: char): (r: string)
    ensures |parts| == 0 ==> r == ""
    ensures |parts| == 1 ==> r == parts[0]
  {
    if |parts| == 0 then ""
    else if |parts| == 1 then parts[0]
    else parts[0] + [sep] + Join(parts[1..], sep)
  }

  /** Index of the first `c` in `s`, or `|s|` when there is none. */
  function IndexOf(s: string, c: char): (i: nat)
    ensures i <= |s|
    ensures i < |s| ==> s[i] == c
    ensures forall j :: 0 <= j < i ==> s[j] != c
  {
    if |s| == 0 then 0
    else if s[0] == c then 0
    else 1 + IndexOf(s[1..], c)
  }

  /** `s.split(sep)` for a one-character separator: always at least one part,
      and no part contains the separator. */
  function Split(s: string, sep: char): (r: seq<string>)
    ensures |r| >= 1
    ensures forall k :: 0 <= k < |r| ==> sep !in r[k]
    decreases |s|
  {
    var i := IndexOf(s, sep);
    if i == |s| then [s]
    else [s[..i]] + Split(s[i + 1..], sep)
  }

  /** Splitting a join recovers the parts, provided none of them contains the
      separator (and there is at least one part: `"".split` gives `[""]`). */
  lemma {:induction false} SplitJoin(parts: seq<string>, sep: char)
    requires |parts| >= 1
    requires forall k :: 0 <= k < |parts| ==> sep !in parts[k]
    ensures Split(Join(parts, sep), sep) == parts
    decreases |parts|
  {
    if |parts| == 1 {
      var i := IndexOf(parts[0], sep);
      assert i == |parts[0]|;
    } else {
      var rest := Join(parts[1..], sep);
      var s := parts[0] + [sep] + rest;
      assert Join(parts, sep) == s;
      assert s == parts[0] + ([sep] + rest);
      IndexOfPrefix(parts[0], sep, [sep] + rest);
      assert IndexOf(s, sep) == |parts[0]|;
      assert s[..|parts[0]|] == parts[0];
      assert s[|parts[0]| + 1..] == rest;
      SplitJoin(parts[1..], sep);
      assert parts == [parts[0]] + parts[1..];
    }
  }

  lemma {:induction false} IndexOfPrefix(a: string, c: char, b: string)
    requires c !in a
    requires |b| > 0 && b[0] == c
    ensures IndexOf(a + b, c) == |a|
    decreases |a|
  {
    if |a| == 0 {
      assert a + b == b;
    } else {
      assert (a + b)[1..] == a[1..] + b;
      IndexOfPrefix(a[1..], c, b);
    }
  }

  /** `os.path.join(dir, name)` for a directory that does not end in `/` and
      a relative entry name, as `os.listdir` yields. */
  function PathJoin(dir: string, name: string): string {
    dir + "/" + name
  }

  /** `os.path.basename(p)`: everything after the last `/`. */
  function Basename(p: string): (r: string)
    ensures '/' !in r
    ensures EndsWith(p, r)
    ensures |r| < |p| ==> p[|p| - |r| - 1] == '/'
    decreases |p|
  {
    if |p| == 0 then ""
    else if p[|p| - 1] == '/' then ""
    else
      var q := p[..|p| - 1];
      assert forall i :: 0 <= i < |q| ==> p[i] == q[i];
      var r := Basename(q) + [p[|p| - 1]];
      assert p == q + [p[|p| - 1]];
      r
  }

  /** The basename of a joined path is the entry name. */
  lemma {:induction false} BasenameOfJoin(dir: string, name: string)
    requires '/' !in name
    ensures Basename(PathJoin(dir, name)) == name
    decreases |name|
  {
    var p := PathJoin(dir, name);
    if |name| == 0 {
      assert p[|p| - 1] == '/';
    } else {
      assert p[..|p| - 1] == PathJoin(dir, name[..|name| - 1]);
      BasenameOfJoin(dir, name[..|name| - 1]);
      assert name == name[..|name| - 1] + [name[|name| - 1]];
    }
  }
}

=== FILE: viewer.dfy ===
/** The viewer as one event-driven state machine: the process slot of the
    simulation controller, the run indicator (button label and progress bar),
    and the two galleries. Every user action, timer tick and callback from
    the worker thread is an `Event`; each yields the new state, the log
    lines written and the effects on the outside world. The worker thread
    itself, the process it spawns and the timer are not modelled: their
    observable results are events. */
module Viewer {
  import opened Wrappers
  import opened Text
  import opened Decimal
  import opened Sidecar
  import opened Gallery
  import opened Clear

  /** A running simulation process. */
  datatype Handle = Handle(pid: nat)

  /** The log lines this part of the viewer writes. */
  datatype Message =
    | AlreadyRunning
    | NotRunning
    | Starting
    | StoppedByUser
    | RunFinished
    | PlotsCleared(count: nat)
    | MatricesCleared(count: nat)

  /** The check mark and cross of the source's log texts, kept as the three
      characters the source file holds for each (UTF-8 bytes read as
      Windows-1252). */
  const CheckMark: string := "âœ“"
  const Cross: string := "âœ—"

  /** What a leading mark says about the first characters of a text. */
  lemma MarkOf(s: string)
    ensures StartsWith(s, CheckMark) ==> s[0] == 'â' && s[2] == '“'
    ensures StartsWith(s, Cross) ==> s[0] == 'â' && s[2] == '—'
  {
    if StartsWith(s, CheckMark) {
      assert s[..3][2] == CheckMark[2];
    }
    if StartsWith(s, Cross) {
      assert s[..3][2] == Cross[2];
    }
  }

  /** The text of a log line. Only the two "cleared" lines carry the check
      mark and only the "stopped" line carries the cross. */
  function TextOf(m: Message): (r: string)
    ensures StartsWith(r, CheckMark) <==> m.PlotsCleared? || m.MatricesCleared?
    ensures StartsWith(r, Cross) <==> m.StoppedByUser?
  {
    var r :=
      match m
      case AlreadyRunning => "Simulation already running!"
      case NotRunning => "No simulation running."
      case Starting => "Starting Josephson simulation..."
      case StoppedByUser => Cross + " Simulation stopped by user."
      case RunFinished => "Simulation finished."
      case PlotsCleared(n) => CheckMark + " Cleared plots + metadata (" + NatToString(n) + " files)."
      case MatricesCleared(n) => CheckMark + " Cleared matrices + metadata (" + NatToString(n) + " files).";
    MarkOf(r);
    r
  }

  /** Equal texts that share a prefix and a suffix agree in between. */
  lemma Middle(a: string, x: string, y: string, b: string)
    requires a + x + b == a + y + b
    ensures x == y
  {
    var s := a + x + b;
    assert |x| == |y|;
    assert s[|a|..|a| + |x|] == x;
    assert (a + y + b)[|a|..|a| + |y|] == y;
  }

  /** A "cleared" log line determines how many files were removed. */
  lemma ClearedTextDeterminesCount(m: nat, n: nat)
    ensures TextOf(PlotsCleared(m)) == TextOf(PlotsCleared(n)) ==> m == n
    ensures TextOf(MatricesCleared(m)) == TextOf(MatricesCleared(n)) ==> m == n
  {
    if TextOf(PlotsCleared(m)) == TextOf(PlotsCleared(n)) {
      Middle(CheckMark + " Cleared plots + metadata (", NatToString(m), NatToString(n), " files).");
      NatToStringInjective(m, n);
    }
    if TextOf(MatricesCleared(m)) == TextOf(MatricesCleared(n)) {
      Middle(CheckMark + " Cleared matrices + metadata (", NatToString(m), NatToString(n), " files).");
      NatToStringInjective(m, n);
    }
  }

  /** A log text names exactly one message: different messages never
      share a text. */
  lemma TextsDistinct(m1: Message, m2: Message)
    ensures TextOf(m1) == TextOf(m2) ==> m1 == m2
  {
    if TextOf(m1) == TextOf(m2) {
      var t := TextOf(m1);
      if m1.PlotsCleared? || m1.MatricesCleared? {
        assert m2.PlotsCleared? || m2.MatricesCleared?;
        assert t[12] == (if m1.PlotsCleared? then 'p' else 'm');
        assert t[12] == (if m2.PlotsCleared? then 'p' else 'm');
        ClearedTextDeterminesCount(m1.count, m2.count);
      }
    }
  }

  /** What an event does outside the viewer. */
  datatype Effect =
    | LaunchWorker        // start a thread that spawns the simulation
    | Terminate(h: Handle)
    | Remove(path: string)  // a completed deletion; a failed attempt emits no effect

  /** The viewer's state. `process` is the module-level slot; `busy` is the
      run indicator (button reads "Stop Simulation", progress bar moving). */
  datatype App = App(process: Option<Handle>, busy: bool,
                     plots: Gallery, corr: Gallery,
                     plotView: View, corrView: View)

  /** A gallery's view when the window opens: a blank canvas, the "nothing
      to display" status, both buttons off and an empty metadata box. */
  function OpeningView(kind: Kind): View {
    View(Blank, kind.emptyStatus, Disabled, Disabled, "")
  }

  /** The window as it opens: no process, indicator off, empty lists at index 0. */
  const Init: App := App(None, false, Initial, Initial, OpeningView(Plots), OpeningView(Matrices))

  /** The workspace as an event sees it: both output directories, their
      listings (`None` when a directory does not exist) and the sidecar files. */
  datatype Disk = Disk(plotDir: string, plotListing: Option<seq<string>>,
                       corrDir: string, corrListing: Option<seq<string>>,
                       store: Store)

  /** `decoded` says whether the image the event shows decodes. `failing`
      holds the names whose removal fails. `Spawned` is the worker thread
      filling the slot once the process exists; `Finished` is the
      `simulation_finished` callback it posts when the process ends or
      cannot be waited for. */
  datatype Event =
    | Toggle
    | Start
    | Stop
    | Spawned(h: Handle)
    | Finished
    | PlotTick(decoded: bool)
    | CorrTick(decoded: bool)
    | NextPlot(decoded: bool)
    | PrevPlot(decoded: bool)
    | NextCorr(decoded: bool)
    | PrevCorr(decoded: bool)
    | ClearPlots(failing: set<string>)
    | ClearCorr(failing: set<string>)

  datatype Outcome = Outcome(app: App, log: seq<Message>, effects: seq<Effect>)

  /** `start_simulation`. With the slot occupied: a warning and nothing else.
      Otherwise the run indicator turns on, the plot index (and only the
      plot index) goes back to 0, both lists are refreshed and a worker is
      launched; the slot stays empty until the worker reports `Spawned`. */
  function StartSimulation(app: App, disk: Disk): (o: Outcome)
    ensures app.process.Some? ==> o == Outcome(app, [AlreadyRunning], [])
    ensures app.process.None? ==>
              && o.app.process.None?
              && o.app.busy
              && o.app.plots.index == 0
              && o.app.corr.index == app.corr.index
              && o.app.plots.files == Refresh(app.plots, disk.plotDir, disk.plotListing).files
              && o.app.corr.files == Refresh(app.corr, disk.corrDir, disk.corrListing).files
              && o.app.plotView == app.plotView && o.app.corrView == app.corrView
              && o.log == [Starting]
              && o.effects == [LaunchWorker]
  {
    if app.process.Some? then Outcome(app, [AlreadyRunning], [])
    else
      var plots := Refresh(app.plots.(index := 0), disk.plotDir, disk.plotListing);
      var corr := Refresh(app.corr, disk.corrDir, disk.corrListing);
      Outcome(app.(busy := true, plots := plots, corr := corr), [Starting], [LaunchWorker])
  }

  /** `simulation_finished`: the slot is emptied and the run indicator turns
      off, whatever the state was. */
  function SimulationFinished(app: App): (o: Outcome)
    ensures o.app.process.None? && !o.app.busy
    ensures o.app.plots == app.plots && o.app.corr == app.corr
    ensures o.app.plotView == app.plotView && o.app.corrView == app.corrView
    ensures o.log == [RunFinished] && o.effects == []
  {
    Outcome(app.(process := None, busy := false), [RunFinished], [])
  }

  /** `stop_simulation`. With an empty slot: an informational line and
      nothing else. Otherwise the process is sent a terminate request, the
      slot is emptied at once (without waiting for the process to die) and
      the run is finished. */
  function StopSimulation(app: App): (o: Outcome)
    ensures app.process.None? ==> o == Outcome(app, [NotRunning], [])
    ensures app.process.Some? ==>
              && o.app.process.None? && !o.app.busy
              && o.app.plots == app.plots && o.app.corr == app.corr
              && o.app.plotView == app.plotView && o.app.corrView == app.corrView
              && o.log == [StoppedByUser, RunFinished]
              && o.effects == [Terminate(app.process.value)]
  {
    match app.process
    case None => Outcome(app, [NotRunning], [])
    case Some(h) =>
      var done := SimulationFinished(app.(process := None));
      Outcome(done.app, [StoppedByUser] + done.log, [Terminate(h)])
  }

  /** `toggle_simulation`: start when the slot is empty, stop otherwise. The
      choice follows the slot, not the run indicator. */
  function ToggleSimulation(app: App, disk: Disk): (o: Outcome)
    ensures app.process.None? <==> o == StartSimulation(app, disk)
    ensures app.process.Some? <==> o == StopSimulation(app)
  {
    if app.process.None? then
      assert StartSimulation(app, disk).log != StopSimulation(app).log;
      StartSimulation(app, disk)
    else
      assert StartSimulation(app, disk).log != StopSimulation(app).log;
      StopSimulation(app)
  }

  /** One `Remove` effect per removed name. */
  function Removals(dir: string, names: seq<string>): (r: seq<Effect>)
    ensures |r| == |names|
    ensures forall i :: 0 <= i < |names| ==> r[i] == Remove(PathJoin(dir, names[i]))
  {
    if |names| == 0 then [] else [Remove(PathJoin(dir, names[0]))] + Removals(dir, names[1..])
  }

  /** `clear_plots` (the later of its two definitions). */
  function ClearPlotsStep(app: App, disk: Disk, failing: set<string>): (o: Outcome)
    ensures o.app.process == app.process && o.app.busy == app.busy && o.app.corr == app.corr
    ensures o.app.corrView == app.corrView
    ensures o.app.plots.index == app.plots.index
    ensures o.app.plotView == EmptyView(Plots)
    ensures o.log == [PlotsCleared(|o.effects|)]
    ensures disk.plotListing.None? ==> o.effects == [] && o.app.plots == app.plots
    ensures disk.plotListing.Some? ==>
              && o.effects == Removals(disk.plotDir, Removable(disk.plotListing.value, failing))
              && o.app.plots == Refresh(app.plots, disk.plotDir, Some(Remaining(disk.plotListing.value, failing)))
  {
    var removed := if disk.plotListing.None? then [] else Removable(disk.plotListing.value, failing);
    var left := if disk.plotListing.None? then None else Some(Remaining(disk.plotListing.value, failing));
    var plots := Refresh(app.plots, disk.plotDir, left);
    Outcome(app.(plots := plots, plotView := Show(Plots, plots.files, -1, false, disk.store, app.plotView)),
            [PlotsCleared(|removed|)],
            Removals(disk.plotDir, removed))
  }

  /** `clear_corr` (the later of its two definitions): like `clear_plots`
      when every removal succeeds; a failed removal raises, leaving the
      earlier removals done and nothing else. */
  function ClearCorrStep(app: App, disk: Disk, failing: set<string>): (o: Outcome)
    ensures o.app.process == app.process && o.app.busy == app.busy && o.app.plots == app.plots
    ensures o.app.plotView == app.plotView
    ensures o.app.corr.index == app.corr.index
    ensures disk.corrListing.None? ==>
              o == Outcome(app.(corrView := EmptyView(Matrices)), [MatricesCleared(0)], [])
    ensures disk.corrListing.Some? ==>
              var names := disk.corrListing.value;
              var k := FirstFailure(names, failing);
              && o.effects == Removals(disk.corrDir, Removable(names[..k], failing))
              && (k < |names| ==> o.app == app && o.log == [])
              && (k == |names| ==>
                    && o.log == [MatricesCleared(|o.effects|)]
                    && o.app.corr == Refresh(app.corr, disk.corrDir, Some(Remaining(names, failing)))
                    && o.app.corrView == EmptyView(Matrices))
  {
    match disk.corrListing
    case None =>
      Outcome(app.(corrView := EmptyView(Matrices)), [MatricesCleared(0)], [])
    case Some(names) =>
      var k := FirstFailure(names, failing);
      var removed := Removable(names[..k], failing);
      if k < |names| then Outcome(app, [], Removals(disk.corrDir, removed))
      else
        var corr := Refresh(app.corr, disk.corrDir, Some(Remaining(names, failing)));
        Outcome(app.(corr := corr, corrView := EmptyView(Matrices)),
                [MatricesCleared(|removed|)],
                Removals(disk.corrDir, removed))
  }

  /** The gallery events: the timer tick and the two navigation buttons of
      each gallery. */
  predicate PlotEvent(e: Event) {
    e.PlotTick? || e.NextPlot? || e.PrevPlot?
  }

  predicate CorrEvent(e: Event) {
    e.CorrTick? || e.NextCorr? || e.PrevCorr?
  }

  /** A plots event: it touches only the plots gallery, polls the plots
      directory and draws views of plots; it logs nothing and has no effect
      outside. A tick is `update_plot` (the poll and its redraw), a press is
      `next_plot` or `prev_plot`. */
  function PlotStep(app: App, disk: Disk, e: Event): (o: Outcome)
    requires PlotEvent(e)
    ensures o.log == [] && o.effects == []
    ensures o.app.process == app.process && o.app.busy == app.busy
    ensures o.app.corr == app.corr && o.app.corrView == app.corrView
    ensures ViewOf(Plots, app.plotView, o.app.plotView)
    ensures e.PlotTick? ==> o.app.plots == Poll(app.plots, disk.plotDir, disk.plotListing)
    ensures e.NextPlot? ==> o.app.plots == Next(app.plots)
    ensures e.PrevPlot? ==> o.app.plots == Prev(app.plots)
    ensures e.PlotTick? ==>
              (o.app.plots, o.app.plotView)
              == PollStep(Plots, disk.plotDir, app.plots, disk.plotListing, e.decoded, disk.store, app.plotView)
    ensures e.NextPlot? ==>
              (o.app.plots, o.app.plotView) == NextStep(Plots, app.plots, e.decoded, disk.store, app.plotView)
    ensures e.PrevPlot? ==>
              (o.app.plots, o.app.plotView) == PrevStep(Plots, app.plots, e.decoded, disk.store, app.plotView)
  {
    var (g, v) :=
      match e
      case PlotTick(d) =>
        (var r := PollStep(Plots, disk.plotDir, app.plots, disk.plotListing, d, disk.store, app.plotView);
         ShowViewOf(Plots, r.0.files, Target(r.0), d, disk.store, app.plotView);
         r)
      case NextPlot(d) =>
        (ShowViewOf(Plots, app.plots.files, app.plots.index + 1, d, disk.store, app.plotView);
         NextStep(Plots, app.plots, d, disk.store, app.plotView))
      case PrevPlot(d) =>
        (ShowViewOf(Plots, app.plots.files, app.plots.index - 1, d, disk.store, app.plotView);
         PrevStep(Plots, app.plots, d, disk.store, app.plotView));
    Outcome(app.(plots := g, plotView := v), [], [])
  }

  /** A matrices event: the same for the matrices gallery. */
  function CorrStep(app: App, disk: Disk, e: Event): (o: Outcome)
    requires CorrEvent(e)
    ensures o.log == [] && o.effects == []
    ensures o.app.process == app.process && o.app.busy == app.busy
    ensures o.app.plots == app.plots && o.app.plotView == app.plotView
    ensures ViewOf(Matrices, app.corrView, o.app.corrView)
    ensures e.CorrTick? ==> o.app.corr == Poll(app.corr, disk.corrDir, disk.corrListing)
    ensures e.NextCorr? ==> o.app.corr == Next(app.corr)
    ensures e.PrevCorr? ==> o.app.corr == Prev(app.corr)
    ensures e.CorrTick? ==>
              (o.app.corr, o.app.corrView)
              == PollStep(Matrices, disk.corrDir, app.corr, disk.corrListing, e.decoded, disk.store, app.corrView)
    ensures e.NextCorr? ==>
              (o.app.corr, o.app.corrView) == NextStep(Matrices, app.corr, e.decoded, disk.store, app.corrView)
    ensures e.PrevCorr? ==>
              (o.app.corr, o.app.corrView) == PrevStep(Matrices, app.corr, e.decoded, disk.store, app.corrView)
  {
    var (g, v) :=
      match e
      case CorrTick(d) =>
        (var r := PollStep(Matrices, disk.corrDir, app.corr, disk.corrListing, d, disk.store, app.corrView);
         ShowViewOf(Matrices, r.0.files, Target(r.0), d, disk.store, app.corrView);
         r)
      case NextCorr(d) =>
        (ShowViewOf(Matrices, app.corr.files, app.corr.index + 1, d, disk.store, app.corrView);
         NextStep(Matrices, app.corr, d, disk.store, app.corrView))
      case PrevCorr(d) =>
        (ShowViewOf(Matrices, app.corr.files, app.corr.index - 1, d, disk.store, app.corrView);
         PrevStep(Matrices, app.corr, d, disk.store, app.corrView));
    Outcome(app.(corr := g, corrView := v), [], [])
  }

  /** The effect of one event: each button's `command`, each timer and each
      callback of the worker thread bound to its handler. The gallery events
      stay on their own side (`PlotStep`, `CorrStep`); the worker filling the
      slot changes nothing else. */
  function Step(app: App, disk: Disk, e: Event): (o: Outcome)
    ensures e.Toggle? ==> o == ToggleSimulation(app, disk)
    ensures e.Start? ==> o == StartSimulation(app, disk)
    ensures e.Stop? ==> o == StopSimulation(app)
    ensures e.Finished? ==> o == SimulationFinished(app)
    ensures e.Spawned? ==> o == Outcome(app.(process := Some(e.h)), [], [])
    ensures e.ClearPlots? ==> o == ClearPlotsStep(app, disk, e.failing)
    ensures e.ClearCorr? ==> o == ClearCorrStep(app, disk, e.failing)
    ensures PlotEvent(e) ==> o == PlotStep(app, disk, e)
    ensures CorrEvent(e) ==> o == CorrStep(app, disk, e)
  {
    if PlotEvent(e) then PlotStep(app, disk, e)
    else if CorrEvent(e) then CorrStep(app, disk, e)
    else
      match e
      case Toggle => ToggleSimulation(app, disk)
      case Start => StartSimulation(app, disk)
      case Stop => StopSimulation(app)
      case Spawned(h) => Outcome(app.(process := Some(h)), [], [])
      case Finished => SimulationFinished(app)
      case ClearPlots(failing) => ClearPlotsStep(app, disk, failing)
      case ClearCorr(failing) => ClearCorrStep(app, disk, failing)
  }

  /** Neither gallery index is ever negative. */
  predicate IndicesValid(app: App) {
    app.plots.index >= 0 && app.corr.index >= 0
  }

  /** Every event keeps both indices non-negative. */
  lemma StepKeepsIndices(app: App, disk: Disk, e: Event)
    requires IndicesValid(app)
    ensures IndicesValid(Step(app, disk, e).app)
  {
  }

  /** A run: each event with the workspace as that event sees it, applied in
      order; the log and the effects concatenate. */
  function Run(app: App, steps: seq<(Disk, Event)>): Outcome
    decreases |steps|
  {
    if |steps| == 0 then Outcome(app, [], [])
    else
      var first := Step(app, steps[0].0, steps[0].1);
      var rest := Run(first.app, steps[1..]);
      Outcome(rest.app, first.log + rest.log, first.effects + rest.effects)
  }

  /** Any run from a state with valid indices ends in one, however the
      directories change between events. */
  lemma {:induction false} RunKeepsIndices(app: App, steps: seq<(Disk, Event)>)
    requires IndicesValid(app)
    ensures IndicesValid(Run(app, steps).app)
    decreases |steps|
  {
    if |steps| > 0 {
      StepKeepsIndices(app, steps[0].0, steps[0].1);
      RunKeepsIndices(Step(app, steps[0].0, steps[0].1).app, steps[1..]);
    }
  }

  /** No run from the opening window makes a gallery index negative. */
  lemma RunFromInit(steps: seq<(Disk, Event)>)
    ensures IndicesValid(Run(Init, steps).app)
  {
    RunKeepsIndices(Init, steps);
  }

  /** A run of two events is the first step followed by the second. */
  lemma RunPair(app: App, s1: (Disk, Event), s2: (Disk, Event))
    ensures var o1 := Step(app, s1.0, s1.1);
            var o2 := Step(o1.app, s2.0, s2.1);
            Run(app, [s1, s2]) == Outcome(o2.app, o1.log + o2.log, o1.effects + o2.effects)
  {
    var o1 := Step(app, s1.0, s1.1);
    var o2 := Step(o1.app, s2.0, s2.1);
    assert [s1, s2][1..] == [s2];
    assert [s2][1..] == [];
    assert Run(o1.app, [s2]) == Outcome(o2.app, o2.log, o2.effects);
  }

  /** A run of three events is the first step followed by the run of the
      other two. */
  lemma RunTriple(app: App, s1: (Disk, Event), s2: (Disk, Event), s3: (Disk, Event))
    ensures var o1 := Step(app, s1.0, s1.1);
            var rest := Run(o1.app, [s2, s3]);
            Run(app, [s1, s2, s3]) == Outcome(rest.app, o1.log + rest.log, o1.effects + rest.effects)
  {
    assert [s1, s2, s3][1..] == [s2, s3];
  }

  /** The slot is only filled by the worker thread, so pressing the button
      twice before the first process exists launches two workers and warns
      about neither: reading the slot and filling it are not one
      step. */
  lemma DoubleToggleBeforeSpawn(app: App, d1: Disk, d2: Disk)
    requires app.process.None?
    ensures var o := Run(app, [(d1, Toggle), (d2, Toggle)]);
            && o.effects == [LaunchWorker, LaunchWorker]
            && o.log == [Starting, Starting]
            && o.app.process.None?
  {
    RunPair(app, (d1, Toggle), (d2, Toggle));
    var o1 := Step(app, d1, Toggle);
    assert o1 == StartSimulation(app, d1);
    var o2 := Step(o1.app, d2, Toggle);
    assert o2 == StartSimulation(o1.app, d2);
  }

  /** Once the worker has filled the slot, a second start only warns. */
  lemma StartAfterSpawnWarns(app: App, d1: Disk, d2: Disk, d3: Disk, h: Handle)
    requires app.process.None?
    ensures var o := Run(app, [(d1, Start), (d2, Spawned(h)), (d3, Start)]);
            && o.effects == [LaunchWorker]
            && o.log == [Starting, AlreadyRunning]
            && o.app.process == Some(h)
  {
    RunTriple(app, (d1, Start), (d2, Spawned(h)), (d3, Start));
    var o1 := Step(app, d1, Start);
    assert o1.log == [Starting] && o1.effects == [LaunchWorker];
    RunPair(o1.app, (d2, Spawned(h)), (d3, Start));
    var o2 := Step(o1.app, d2, Spawned(h));
    assert o2.app.process == Some(h) && o2.log == [] && o2.effects == [];
    var o3 := Step(o2.app, d3, Start);
    assert o3 == Outcome(o2.app, [AlreadyRunning], []);
  }

  /** Stopping finishes the run at once; when the worker then posts its own
      `simulation_finished`, the run is finished a second time: the
      finished line is logged twice. */
  lemma StopThenWorkerFinished(app: App, d1: Disk, d2: Disk)
    requires app.process.Some?
    ensures var o := Run(app, [(d1, Stop), (d2, Finished)]);
            && o.log == [StoppedByUser, RunFinished, RunFinished]
            && o.effects == [Terminate(app.process.value)]
            && o.app.process.None?
  {
    RunPair(app, (d1, Stop), (d2, Finished));
    var o1 := Step(app, d1, Stop);
    assert o1 == StopSimulation(app);
    var o2 := Step(o1.app, d2, Finished);
    assert o2 == SimulationFinished(o1.app);
  }
}

=== FILE: wrappers.dfy ===
/** Optional values: Python's `None` or a present value. */
module Wrappers {

  datatype Option<+T> = None | Some(value: T)
}
